=== FILE: README.md ===
# Binary trees, universal codes and a paged record list — a Dafny model

This project models the core of a set of C lab programs about data structures:

- the search trees of `3.4/3.4.c` and `3.3/3-3lab.c`: insertion that ignores duplicates, minimum node, deletion, lookup, the pointer-to-pointer insertion and the tree statistics (size, checksum, height, path-length sum);
- the perfectly balanced tree (ISDP) that `3-3lab.c` builds from a sorted array;
- the counting insertion sort of `3-3lab.c`, with its move and comparison counters;
- the AVL tree of `3.5/3.5.c`: the four rotations, insertion with the "height changed" flag, the statistics and the leaf-depth totals;
- the universal codes of `nekal.c`, whose lines 7-92 are repeated verbatim in `kod.c`: floor log2, bit length, fixed-width binary, mantissa, the fixed+variable code, Elias gamma and Elias omega;
- the deposit database of `saod.c`: the record comparator, the three-letter lawyer prefix and the prefix search;
- the page-by-page listing of `saod.c` and `course.c`.

Trees are one immutable datatype, `Trees.Tree<B>`. Each node carries an extra field: the balance factor in the AVL tree (`Tree<int>`) and nothing in the plain search trees (`Tree<()>`). Pointer updates become functions that return the new tree. Two of the loops that walk a tree are methods:
- `Bst.Search`;
- `Bst.AddDouble`, which models the pointer to the current link as the recorded descent path.

The third, the left-spine loop of `minValueNode`, is the recursive function `Bst.MinValueNode`.

Every operation gets at least one partner property, as a postcondition or a lemma:
- a reference definition, such as the in-order sequence, the key set or the pass-by-pass sort;
- an inverse, such as the decoders of the three codes;
- or an invariant it preserves, such as search order, AVL balance or the page range.

Modelling decisions that follow the code:

- **AVL balance sign.** The balance stored in an AVL node is height(right) − height(left). That is what the insertion code maintains: growth on the left moves the balance from +1 to 0 and from 0 to −1. The Russian comments in the switch of `insertAVL` name the heavy sides the other way round. The model follows the code.
- **AVL tie-breaks.** When the left side overflows, the code uses LL only if the left child's balance is exactly −1, and LR in every other case. The right side mirrors this. `Avl.BalanceLeft` and `Avl.BalanceRight` keep these tests.
- **No AVL deletion.** `3.5.c` has no AVL deletion, so there is none here. Deletion exists only for the plain search tree of `3.4.c`.
- **Prefix search is linear.** The comment above `search_by_lawyer_prefix` in `saod.c` calls it a binary search. The code scans every record, and so does the model.
- **C division in `max_page`.** `max_page = (total_records - 1) / PAGE_SIZE` uses C's truncating division. An empty database therefore gets last page 0, not −1. `Paging.TruncDiv` models this.
- **Bit extraction.** `(value >> i) & 1` is modelled as floor division by 2^i, then the remainder modulo 2. This agrees with an arithmetic shift on two's complement values.

## Model

| member | source | states |
|---|---|---|
| Bits.Log2Floor | nekal.c:7-15 | For n ≥ 1 the result k satisfies 2^k ≤ n < 2^(k+1). For n ≤ 1 the result is 0. |
| Bits.GetLog2Floor | nekal.c:7-15 | The shifting loop returns the same value as `Log2Floor`, and that value brackets n between consecutive powers of two. |
| Bits.Log2FloorUnique | nekal.c:7-15 | The floor log2 is the only exponent whose powers bracket n. |
| Bits.BitLength | nekal.c:17-20 | For n ≥ 1: 2^(len−1) ≤ n < 2^len and len = floor log2 + 1. For n ≤ 0 the length is 0. |
| Bits.ToBinFixed | nekal.c:22-29 | Renders exactly max(bits, 0) characters. |
| Bits.ToBinFixedRoundTrip | nekal.c:22-29 | Reading the rendering back as binary gives value mod 2^bits. |
| Bits.ToBinFixedDigits | nekal.c:22-29 | Every character written is '0' or '1'. |
| Bits.ToBinFixedUnique | nekal.c:22-29 | The rendering is the only string of `bits` binary digits that reads back as value mod 2^bits. So its digits are exactly the low `bits` bits of the value, most significant first. |
| Bits.BinaryRoundTrip | nekal.c:17-29 | For n ≥ 1 the full-length rendering starts with '1', has BitLength(n) digits and reads back as n. |
| Bits.MantissaCompletesBinary | nekal.c:31-37 | A '1' followed by the floor-log2 mantissa is the binary form of n. The mantissa alone reads back as n − 2^order. |
| Bits.GetMantissa | nekal.c:31-37 | The mantissa has `order` digits, or none for order ≤ 0. For order ≥ 0 they read back as n mod 2^order, the bits below position `order`. |
| Codes.CodeFixedVariable | nekal.c:39-51 | The first four characters are the bit length in fixed 4-digit binary. n ≤ 1 gives only those four. n ≥ 2 adds a space and BitLength(n) − 1 mantissa digits. |
| Codes.FixedVariableRoundTrip | nekal.c:39-51 | Every 0 ≤ n < 2^15 is recovered by the decoder from its fixed+variable code. |
| Codes.FixedVariableFieldWraps | nekal.c:39-51 | For 2^15 ≤ n < 2^16 the 4-digit length field keeps only the low four bits of 16. It reads "0000", the field of 0, instead of the length, and the decoder rejects these codes. |
| Codes.EliasGamma | nekal.c:53-65 | 0 ↦ "-". n ≥ 1 ↦ floor log2 n zeros followed by the binary form of n, length 2·floor log2 n + 1. n < 0 ↦ "1". |
| Codes.GammaRoundTrip | nekal.c:53-65 | The gamma decoder recovers every n ≥ 1 from its code. |
| Codes.DecodeGammaOf | nekal.c:53-65 | k zeros, a '1' and k digits decode to 2^k plus the digits' value. |
| Codes.EliasOmega | nekal.c:66-92 | 0 ↦ "-". Any other n ↦ its omega groups, each followed by a space, then "0". The omega decoder recovers every n ≥ 1. |
| Codes.OmegaGroupsDecode | nekal.c:78-89 | Decoding the groups of c from N = 1 leaves N = c for the rest of the string. |
| Codes.OmegaRoundTrip | nekal.c:66-92 | The omega decoder recovers every n ≥ 1 from its code. |
| Codes.BitLengthShrinks | nekal.c:80-89 | For c ≥ 2 the next value, BitLength(c) − 1, lies in 1..c−1, so the omega loop terminates. |
| Trees.InOrderHasKeys | 3.3/3-3lab.c:23-31 | The in-order sequence contains exactly the tree's keys. |
| Trees.BstIffSortedInOrder | 3.4/3.4.c:69-75 | A tree is in search order if and only if its in-order sequence strictly increases. |
| Trees.SortedAroundPivot | 3.4/3.4.c:69-75 | a + [k] + b strictly increases if and only if a and b do, all of a is below k and all of b is above k. |
| Trees.SameInOrder | 3.5/3.5.c:157-163 | Two trees with the same in-order sequence have the same keys and agree on search order. |
| Trees.Size | 3.3/3-3lab.c:51-61 | The node count equals the length of the in-order sequence. |
| Trees.SizeIsKeyCount | 3.5/3.5.c:165-169 | In a search tree the node count equals the number of distinct keys. |
| Trees.CheckSum | 3.3/3-3lab.c:63-73 | The checksum is the sum of the in-order key sequence. |
| Trees.Height | 3.3/3-3lab.c:75-87 | The height is 0 exactly for the empty tree and never exceeds the node count. |
| Trees.SizeAtMostFull | 3.5/3.5.c:177-183 | A tree of height h has fewer than 2^h nodes. |
| Trees.HeightIsDeepestNode | 3.3/3-3lab.c:75-87 | With the root at depth d, every node lies at depth d..d+h−1 and some leaf lies at depth d+h−1. Every leaf depth is a node depth. |
| Trees.PathLengthSum | 3.3/3-3lab.c:89-112 | Counted from level 1, as `AverageHeight` does, the total is at least the node count: each node adds at least 1. |
| Trees.PathLengthSumIsDepthSum | 3.3/3-3lab.c:89-101 | `PathLengthSum(t, level)` is the sum, over all nodes, of the node's depth counted from `level` at the root. |
| Trees.PathLengthSumOverNodes | 3.3/3-3lab.c:89-112 | Starting one level deeper adds exactly the node count. So `AverageHeight`'s PathLengthSum(root, 1) counts each node at its 1-based level. |
| Trees.NodeDepthsCount | 3.3/3-3lab.c:89-101 | There is exactly one depth per node. |
| Trees.AccumulateLeafDepths | 3.5/3.5.c:191-201 | The accumulator gains the sum of the leaf depths and the number of leaves. |
| Trees.LeafCountBounds | 3.5/3.5.c:203-209 | A non-empty tree has between 1 and Size leaves, and the empty tree has none. So the average-depth division never divides by zero. |
| Bst.NewNode | 3.4/3.4.c:12-17 | A single node is a search tree holding just its key, with size and height 1. The same holds for `create_vertex` of 3.3/3-3lab.c:14-21. |
| Bst.Insert | 3.4/3.4.c:20-27 | The keys become old keys ∪ {key}. Search order is preserved. A present key leaves the tree unchanged. Size grows by at most one. The same holds for `add_RecursiveSDP` of 3.3/3-3lab.c:222-240. |
| Bst.InsertSize | 3.3/3-3lab.c:222-240 | A new key adds exactly one node and a present key adds none. Inserting the same key twice is the same as inserting it once. |
| Bst.MinValueNode | 3.4/3.4.c:30-35 | The result is empty exactly for the empty tree. Otherwise it is a node without a left child whose key is in the tree and, in a search tree, no larger than any key. |
| Bst.Delete | 3.4/3.4.c:38-66 | An absent key leaves the tree unchanged. No key is ever added. A search tree stays a search tree and loses exactly `key`. |
| Bst.DeleteSize | 3.4/3.4.c:38-66 | Deleting a present key removes exactly one node and an absent key removes none. |
| Bst.DeleteAtRoot | 3.4/3.4.c:46-63 | Deleting the root's key when the root has at most one child yields the other child. With two children, the root's key becomes the smallest key of the right subtree, which is removed from that subtree. |
| Bst.Search | 3.3/3-3lab.c:33-49 | Returns 0 or 1, and 1 only for a present key. In a search tree it returns 1 if and only if the key is present. |
| Bst.AddDouble | 3.3/3-3lab.c:196-220 | The iterative insertion through the link pointer builds the same tree as the recursive insertion. So it adds the key, keeps search order and ignores duplicates. |
| PerfectTree.BuildIsdp | 3.3/3-3lab.c:179-194 | The in-order sequence of the tree built from A[L..R] is A[L..R]. At every node the right subtree has as many nodes as the left or one more. |
| PerfectTree.BuildIsdpIsBst | 3.3/3-3lab.c:179-194 | From a strictly increasing slice the result is a search tree holding exactly the slice's elements. |
| PerfectTree.BuildIsdpSize | 3.3/3-3lab.c:179-194 | The tree has R − L + 1 nodes. |
| PerfectTree.PerfectHeight | 3.3/3-3lab.c:179-194 | A perfectly balanced tree of n nodes has height BitLength(n) = floor log2 n + 1. |
| PerfectTree.BuildIsdpHeight | 3.3/3-3lab.c:179-194 | The tree built from A[L..R] has height BitLength(R − L + 1). |
| PerfectTree.HeightAtLeastBitLength | 3.3/3-3lab.c:75-87 | No tree of n nodes has height below BitLength(n). |
| PerfectTree.BuildIsdpMinimalHeight | 3.3/3-3lab.c:179-194 | No tree with as many nodes as A[L..R] is lower than the tree built from it. |
| Sorting.InsertSort | 3.3/3-3lab.c:149-177 | The result is sorted and a permutation of the input, equal to the pass-by-pass sort. The returned M + C equals 2(n−1) + 2·inversions + the number of passes stopped by a comparison. |
| Sorting.InsertPass | 3.3/3-3lab.c:154-174 | One outer pass inserts A[i] into the sorted prefix. Elements after i are untouched. The pass adds 2 + shifts to M, and shifts + 1 to C unless the scan ran off the front. |
| Sorting.InsertAt | 3.3/3-3lab.c:160-172 | If every element from k on exceeds the key and the one before k does not, the pass places the key at k and shifts exactly the elements from k on. |
| Sorting.InsertSortedPerm | 3.3/3-3lab.c:154-174 | One pass permutes: the prefix plus the key, as a multiset. |
| Sorting.InsertSortedSorted | 3.3/3-3lab.c:154-174 | One pass turns a sorted prefix into a sorted prefix one longer. |
| Sorting.SortProperties | 3.3/3-3lab.c:149-177 | The pass-by-pass sort is sorted, has the input's length and is a permutation of the input. |
| Sorting.ShiftsCountGreater | 3.3/3-3lab.c:160-166 | On a sorted prefix the scan shifts exactly the elements greater than the key. |
| Sorting.CountGreaterBelowLength | 3.3/3-3lab.c:167-170 | Fewer than all elements exceed v if and only if some element is ≤ v. This is when the stopping comparison is counted. |
| Sorting.CountGreaterSort | 3.3/3-3lab.c:149-177 | Sorting does not change how many elements exceed a value. |
| Sorting.WorkByInversions | 3.3/3-3lab.c:149-177 | M = 2(n−1) + inversions and C = inversions + stopped passes. |
| Sorting.SortedInputWork | 3.3/3-3lab.c:149-177 | A sorted input has no inversions and every pass stops, so the work is 3(n−1). |
| Avl.NewNode | 3.5/3.5.c:13-19 | A leaf with balance 0 is an AVL tree of height 1 holding just its key. |
| Avl.RotateLL | 3.5/3.5.c:22-30 | The rotation keeps the in-order sequence, hence the keys and search order, in both directions. |
| Avl.RotateRR | 3.5/3.5.c:33-41 | The rotation keeps the in-order sequence, hence the keys and search order, in both directions. |
| Avl.RotateLR | 3.5/3.5.c:44-66 | The double rotation keeps the in-order sequence, hence the keys and search order, in both directions. |
| Avl.RotateRL | 3.5/3.5.c:69-91 | The double rotation keeps the in-order sequence, hence the keys and search order, in both directions. |
| Avl.RotateLLRebalances | 3.5/3.5.c:111-113 | A node whose left child leans left and is two levels taller than the right subtree becomes balanced after LL. Its height becomes right height + 2. |
| Avl.RotateRRRebalances | 3.5/3.5.c:132-134 | This mirrors `RotateLLRebalances` for RR. |
| Avl.RotateLRRebalances | 3.5/3.5.c:111-116 | The left child leans right and is two levels taller. LR applies (the inner grandchild exists), and the stored balances it sets are the true height differences. |
| Avl.RotateRLRebalances | 3.5/3.5.c:132-137 | This mirrors `RotateLRRebalances` for RL. |
| Avl.InsertAvl | 3.5/3.5.c:94-148 | The result grows from t (`GrownBy`): an AVL tree with keys ∪ {key}, taller by one exactly when the flag is set and then leaning unless it is a leaf. A present key returns the tree unchanged with the flag cleared. |
| Avl.BalanceLeft | 3.5/3.5.c:100-120 | After insertion into the left subtree, the balance update or rotation restores `GrownBy` at the node. |
| Avl.BalanceRight | 3.5/3.5.c:121-141 | This mirrors `BalanceLeft` for insertion into the right subtree. |
| Avl.LeftRotateLR | 3.5/3.5.c:111-118 | When the overflowing left child does not lean left, LR is applicable and the node ends up balanced at its old height. |
| Avl.RightRotateRL | 3.5/3.5.c:132-139 | This mirrors `LeftRotateLR`. |
| Avl.Insert | 3.5/3.5.c:151-154 | The wrapper keeps the AVL invariant and adds the key. The height grows by at most one. A present key leaves the tree unchanged. |
| Avl.InsertSize | 3.5/3.5.c:151-169 | The size grows by one exactly for a new key. Inserting twice equals inserting once. |
| Avl.BalancedSizeAtLeast | 3.5/3.5.c:165-183 | A balanced tree of height h has at least N(h) nodes, where N(h) = N(h−1) + N(h−2) + 1. |
| Avl.AvlHeightLogarithmic | 3.5/3.5.c:165-183 | An AVL tree of height h satisfies 2^(h/2) ≤ size + 1, so its height is logarithmic in its size. |
| Records.CStr | saod.c:21 | The string held in the first n bytes has at most n bytes. |
| Records.CStrIsPrefix | saod.c:21 | That string is a zero-free prefix of the array, cut at the first 0 byte or after n bytes. |
| Records.StrNCmp | saod.c:21 | The comparison yields −1, 0 or 1. The meaning of its sign is stated by `StrNCmpZeroIff` and `StrNCmpNegativeIff`. |
| Records.StrNCmpZeroIff | saod.c:21 | strncmp reports equality if and only if the two strings within n bytes are equal. |
| Records.StrNCmpNegativeIff | saod.c:21 | strncmp is negative if and only if the first string within n bytes precedes the second lexicographically: a smaller byte at the first difference, or a proper prefix. |
| Records.StrNCmpAntisymmetric | saod.c:21 | Swapping the arguments negates the result. |
| Records.StrNCmpTransitive | saod.c:21 | The comparison is transitive, strictly so if either step is strict. |
| Records.CompareRecords | saod.c:16-30 | The result is −1, 0 or 1. It is 0 if and only if the lawyer names and the amounts are equal. It is negative if and only if the first lawyer name precedes the second lexicographically, or the names are equal and the first amount is smaller. With different names it is the strncmp result. |
| Records.CompareAntisymmetric | saod.c:16-30 | Swapping the records negates the comparison. |
| Records.CompareTransitive | saod.c:16-30 | The comparator is transitive, as qsort requires. |
| Records.StrNCpy | saod.c:33-37 | strncpy writes exactly n bytes. |
| Records.StrNCpyKeepsString | saod.c:33-37 | Copying n bytes and appending a 0 holds the same string as the first n bytes of the source. |
| Records.LawyerPrefix | saod.c:33-37 | The prefix buffer has 4 bytes ending in 0 and holds the string of the lawyer field's first three bytes. |
| Records.Matches | saod.c:44-49 | A record matches if and only if its lawyer name and the key agree as strings on their first three bytes. |
| Records.SearchByLawyerPrefix | saod.c:40-64 | Lists, in array order, exactly the records that match, and `found` is their number. A record is listed if and only if it is in the database and matches. |
| Records.Selected | saod.c:40-64 | The selection has at most as many records as the database, each of them a database record that matches. |
| Records.SelectedIff | saod.c:44-57 | The selection holds exactly the matching records of the database. |
| Paging.TruncDiv | saod.c:92 | C division rounds toward zero. The remainder a − q·b lies in [0, b) for a ≥ 0 and in (−b, 0] for a < 0. |
| Paging.MaxPage | saod.c:92 | An empty database has last page 0. Otherwise the last page m has m·20 < total ≤ (m+1)·20: it is the last page holding a record. |
| Paging.Window | saod.c:97-99 | The window starts at page·20. It ends at whichever comes first: 20 records later or the end of the data. |
| Paging.WindowInRange | saod.c:97-118 | A page in range shows at most 20 records, all inside the data, and at least one when there is data. |
| Paging.WindowsAdjacent | saod.c:97-99 | Each page starts where the previous one ended. |
| Paging.SaodStep | saod.c:127-156 | 'n' and 'p' move one page, but not past max_page or below 0. 'N' and 'P' move ten pages, clamped to max_page and 0. Pages in 0..max_page stay there. Every other character leaves the page unchanged. |
| Paging.SaodNextThenPrevious | saod.c:127-134 | Below the last page, 'n' followed by 'p' returns to the same page. |
| Paging.SaodSession | saod.c:90-158 | A session starts on page 0 and every page shown is within 0..max_page. Each next page is the previous one moved by a command that is not 'q'/'Q'. It shows one page per command plus one, unless it stops at the first 'q'/'Q'. |
| Paging.SaodRun | saod.c:94-158 | From a page in range, every page of the loop stays in range. Consecutive pages are related by `SaodStep` on a non-quit command, and the loop ends at the first 'q'/'Q' or when the commands run out. |
| Paging.SaodSessionWindows | saod.c:94-118 | With data present, every page a session shows is a non-empty window inside the data. |
| Paging.CourseStep | course.c:62-69 | 'n'/'N' advance one page only while the next page starts inside the data. 'p'/'P' go back one page, but not below 0. The page stays non-negative and, with data present, starts inside the data. Other characters leave it unchanged. |
| Paging.CourseAgreesWithSaod | course.c:62-69 | On a page in range, course.c's 'n' and 'p' agree with saod.c's. In course.c, 'N' and 'P' are the same one-page moves. |
| Paging.CourseRun | course.c:31-71 | Every page a course.c session shows is non-negative and, with data present, starts inside the data. Consecutive pages are related by `CourseStep` on a non-quit command, and the loop ends at the first 'q'/'Q' or when the commands run out. |

## Left out

- Console and file I/O are left out:
  - `printf`, `getchar`, `scanf`, `system("chcp …")` and `fopen`/`fread`;
  - the printing traversals (`inorder`, `Left_to_Right`, `PrintMas`, `PrintStatString`).
  
  A session is modelled as the sequence of characters returned by `command = getchar()` (saod.c:120, course.c:57). The search key is a parameter, and listings are returned instead of printed.
- The sessions' input-line handling is not modelled, because it depends on the layout of the input stream rather than on the commands:
  - After each command, `while (getchar() != '\n');` discards the rest of the line. On an empty line that loop swallows the following line as well.
  - The 's' command of saod.c also reads the search line with `scanf("%3s")` and a "press Enter" line (saod.c:143-156). The model takes the key as a parameter.
  - At end of input without 'q', `getchar()` returns EOF forever and the flush loop never ends. The model's session ends when the commands run out.
- Left out entirely:
  - `rand`/`srand` and the random array generators;
  - the floating-point averages `AverageHeight` and `getAverageDepth`, whose integer totals are modelled;
  - `log2_custom` and the hard-coded ISDP height table;
  - the `main` functions' test scaffolding.
- Memory management is not modelled: `malloc`/`free` become construction of immutable values, and ownership is structural.
- `qsort` itself is not modelled. Only its comparator is, with the antisymmetry and transitivity that make it a valid ordering.
- The arithmetic coder (kod.c lines 115-350 and ariph.c) is not part of this model.
- AVL deletion is not modelled because the source has none.
- `course.c` passes mismatched `printf` arguments when listing a page. That is undefined behaviour in printing only, and it is not modelled.
- Trees.CheckSum, Trees.PathLengthSum, Sorting.InsertSort: use unbounded integers. They do not model 32-bit `int` overflow of the C sums and counters, because the programs' inputs (at most a few hundred keys below 1001) stay far from it.
- Bits.ToBinFixed: assumes `value >> i` is an arithmetic shift. It does not model the undefined behaviour of shifts by 32 or more.
- Codes.FixedVariableRoundTrip: is stated only for n < 2^15. The 4-digit length field cannot hold bit length 16, which `Codes.FixedVariableFieldWraps` shows.
- Codes.GammaRoundTrip, Codes.OmegaRoundTrip: are stated for n ≥ 1 only. The source maps 0 to "-" and negative numbers to "1" (gamma) and "0" (omega), which the coders' postconditions state.
- Records.StrNCmp: models strncmp's result as −1, 0 or 1. The C standard fixes only its sign, which is all the comparator and the search use.
- Avl.InsertAvl, Avl.BalanceLeft, Avl.BalanceRight: require an AVL tree as input. The code relies on this when it switches on a balance assumed to be −1, 0 or 1.
- PerfectTree.BuildIsdp: requires L ≤ R + 1 within the array. The program only calls it with L = 0 and R = n − 1.
- Records.SearchByLawyerPrefix: requires a key of at least three bytes, since `scanf("%3s")` fills a 4-byte buffer. It requires well-formed records with fixed field widths.

=== FILE: avl.dfy ===
/**
 The AVL tree of 3.5/3.5.c. Every node stores a balance factor equal to the
 height of its right subtree minus the height of its left subtree (this is
 what the insertion code maintains: growth on the left moves the balance
 towards -1, growth on the right towards +1). Insertion works recursively
 and reports through a flag whether the subtree got taller; the four
 rotations repair a node whose balance would reach -2 or +2.
 */
module Avl {
  import opened Bits
  import opened Trees

  type AvlTree = Tree<int>

  /** Every stored balance is right height minus left height, and lies in -1..1. */
  ghost predicate Balanced(t: AvlTree)
  {
    match t
    case Empty => true
    case Node(l, _, b, r) =>
      && Balanced(l) && Balanced(r)
      && b == Height(r) - Height(l)
      && -1 <= b <= 1
  }

  ghost predicate IsAvl(t: AvlTree)
  {
    IsBst(t) && Balanced(t)
  }

  /** `newNode`: a leaf with balance 0. */
  function NewNode(key: int): (t: AvlTree)
    ensures IsAvl(t) && Keys(t) == {key} && InOrder(t) == [key]
    ensures Height(t) == 1 && t.bal == 0
  {
    Node(Empty, key, 0, Empty)
  }

  // ---------------------------------------------------------------------------
  // Rotations. Each keeps the in-order key sequence, hence the search order.

  /** `rotateLL`: the left child becomes the root; both get balance 0. */
  function RotateLL(p: AvlTree): (t: AvlTree)
    requires p.Node? && p.left.Node?
    ensures InOrder(t) == InOrder(p)
    ensures Keys(t) == Keys(p) && (IsBst(t) <==> IsBst(p))
  {
    var q := p.left;
    var t := Node(q.left, q.key, 0, Node(q.right, p.key, 0, p.right));
    SameInOrder(t, p);
    t
  }

  /** `rotateRR`: the right child becomes the root; both get balance 0. */
  function RotateRR(p: AvlTree): (t: AvlTree)
    requires p.Node? && p.right.Node?
    ensures InOrder(t) == InOrder(p)
    ensures Keys(t) == Keys(p) && (IsBst(t) <==> IsBst(p))
  {
    var q := p.right;
    var t := Node(Node(p.left, p.key, 0, q.left), q.key, 0, q.right);
    SameInOrder(t, p);
    t
  }

  /**
   `rotateLR`: the right child r of the left child q becomes the root with q
   and p as its children. p gets +1 when r leaned left, q gets -1 when r
   leaned right, r gets 0.
   */
  function RotateLR(p: AvlTree): (t: AvlTree)
    requires p.Node? && p.left.Node? && p.left.right.Node?
    ensures InOrder(t) == InOrder(p)
    ensures Keys(t) == Keys(p) && (IsBst(t) <==> IsBst(p))
  {
    var q := p.left;
    var r := q.right;
    var pb := if r.bal < 0 then 1 else 0;
    var qb := if r.bal > 0 then -1 else 0;
    var t := Node(Node(q.left, q.key, qb, r.left), r.key, 0, Node(r.right, p.key, pb, p.right));
    assert InOrder(t) == InOrder(p) by {
      var a, b, c, d := InOrder(q.left), InOrder(r.left), InOrder(r.right), InOrder(p.right);
      assert InOrder(r) == b + [r.key] + c;
      assert InOrder(q) == a + [q.key] + InOrder(r);
      assert InOrder(p) == InOrder(q) + [p.key] + d;
      assert InOrder(t) == (a + [q.key] + b) + [r.key] + (c + [p.key] + d);
    }
    SameInOrder(t, p);
    t
  }

  /**
   `rotateRL`: the left child r of the right child q becomes the root with p
   and q as its children. p gets -1 when r leaned right, q gets +1 when r
   leaned left, r gets 0.
   */
  function RotateRL(p: AvlTree): (t: AvlTree)
    requires p.Node? && p.right.Node? && p.right.left.Node?
    ensures InOrder(t) == InOrder(p)
    ensures Keys(t) == Keys(p) && (IsBst(t) <==> IsBst(p))
  {
    var q := p.right;
    var r := q.left;
    var pb := if r.bal > 0 then -1 else 0;
    var qb := if r.bal < 0 then 1 else 0;
    var t := Node(Node(p.left, p.key, pb, r.left), r.key, 0, Node(r.right, q.key, qb, q.right));
    assert InOrder(t) == InOrder(p) by {
      var a, b, c, d := InOrder(p.left), InOrder(r.left), InOrder(r.right), InOrder(q.right);
      assert InOrder(r) == b + [r.key] + c;
      assert InOrder(q) == InOrder(r) + [q.key] + d;
      assert InOrder(p) == a + [p.key] + InOrder(q);
      assert InOrder(t) == (a + [p.key] + b) + [r.key] + (c + [q.key] + d);
    }
    SameInOrder(t, p);
    t
  }

  /**
   A node whose left subtree is two levels taller than its right one and
   leans left itself: the LL rotation balances it and brings the height
   back to right height + 2.
   */
  lemma RotateLLRebalances(q: AvlTree, k: int, c: AvlTree)
    requires Balanced(q) && Balanced(c) && q.Node? && q.bal == -1
    requires Height(q) == Height(c) + 2
    ensures Balanced(RotateLL(Node(q, k, -1, c)))
    ensures Height(RotateLL(Node(q, k, -1, c))) == Height(c) + 2
  {
  }

  /** The mirror image: RR for a right subtree two levels taller that leans right. */
  lemma RotateRRRebalances(c: AvlTree, k: int, q: AvlTree)
    requires Balanced(q) && Balanced(c) && q.Node? && q.bal == 1
    requires Height(q) == Height(c) + 2
    ensures Balanced(RotateRR(Node(c, k, 1, q)))
    ensures Height(RotateRR(Node(c, k, 1, q))) == Height(c) + 2
  {
  }

  /** A left subtree two levels taller that leans right: the LR rotation balances the node. */
  lemma RotateLRRebalances(q: AvlTree, k: int, c: AvlTree)
    requires Balanced(q) && Balanced(c) && q.Node? && q.bal == 1
    requires Height(q) == Height(c) + 2
    ensures q.right.Node?
    ensures Balanced(RotateLR(Node(q, k, -1, c)))
    ensures Height(RotateLR(Node(q, k, -1, c))) == Height(c) + 2
  {
    var r := q.right;
    assert Height(r) == Height(c) + 1;
  }

  /** The mirror image: RL for a right subtree two levels taller that leans left. */
  lemma RotateRLRebalances(c: AvlTree, k: int, q: AvlTree)
    requires Balanced(q) && Balanced(c) && q.Node? && q.bal == -1
    requires Height(q) == Height(c) + 2
    ensures q.left.Node?
    ensures Balanced(RotateRL(Node(c, k, 1, q)))
    ensures Height(RotateRL(Node(c, k, 1, q))) == Height(c) + 2
  {
    var r := q.left;
    assert Height(r) == Height(c) + 1;
  }

  // ---------------------------------------------------------------------------
  // Insertion

  /**
   What the result of inserting `key` into `before` satisfies: an AVL tree
   holding the old keys and `key`, taller by one exactly when the flag is
   set, a taller result leans to one side unless it is a lone leaf, and a
   key already present leaves the tree unchanged with the flag cleared.
   */
  ghost predicate GrownBy(before: AvlTree, sub: AvlTree, grew: bool, key: int)
  {
    && IsAvl(sub)
    && Keys(sub) == Keys(before) + {key}
    && Height(sub) == Height(before) + (if grew then 1 else 0)
    && (grew ==> sub.Node? && (sub.bal != 0 || (sub.left.Empty? && sub.right.Empty?)))
    && (key in Keys(before) ==> sub == before && !grew)
  }

  /**
   `insertAVL`: returns the new subtree and the `heightChanged` flag. The
   key goes into the left or right subtree by comparison, and the switch on
   the node's balance then runs (`BalanceLeft`, `BalanceRight`). An existing
   key leaves the tree alone and clears the flag. The result grows from `t`
   in the sense of `GrownBy`.
   */
  function InsertAvl(t: AvlTree, key: int): (res: (AvlTree, bool))
    requires IsAvl(t)
    ensures GrownBy(t, res.0, res.1, key)
    decreases t
  {
    match t
    case Empty => (NewNode(key), true)
    case Node(l, k, b, r) =>
      if key < k then
        var sub := InsertAvl(l, key);
        BalanceLeft(t, sub.0, sub.1, key)
      else if key > k then
        var sub := InsertAvl(r, key);
        BalanceRight(t, sub.0, sub.1, key)
      else (t, false)
  }

  /**
   The code after the recursive call on the left: with the flag set, a
   balance of +1 becomes 0 and the flag is cleared, 0 becomes -1 and the
   flag stays, and -1 calls for LL when the new left child leans left and
   for LR otherwise, clearing the flag.
   */
  function BalanceLeft(t: AvlTree, nl: AvlTree, grew: bool, key: int): (res: (AvlTree, bool))
    requires t.Node? && IsAvl(t) && key < t.key
    requires GrownBy(t.left, nl, grew, key)
    ensures GrownBy(t, res.0, res.1, key)
  {
    var k, b, r := t.key, t.bal, t.right;
    if !grew || b == 1 then
      LeftSettles(t, nl, grew, key);
      (Node(nl, k, if grew then 0 else b, r), false)
    else if b == 0 then
      LeftLeans(t, nl, key);
      (Node(nl, k, -1, r), true)
    else if nl.bal == -1 then
      LeftRotateLL(t, nl, key);
      (RotateLL(Node(nl, k, b, r)), false)
    else
      LeftRotateLR(t, nl, key);
      (RotateLR(Node(nl, k, b, r)), false)
  }

  /** The left subtree kept its height, or grew under a right-leaning node: the balance is updated, no rotation. */
  lemma LeftSettles(t: AvlTree, nl: AvlTree, grew: bool, key: int)
    requires t.Node? && IsAvl(t) && key < t.key
    requires GrownBy(t.left, nl, grew, key)
    requires !grew || t.bal == 1
    ensures GrownBy(t, Node(nl, t.key, if grew then 0 else t.bal, t.right), false, key)
  {
    NewLeftChild(t, nl, key, if grew then 0 else t.bal);
  }

  /** The left subtree grew under an even node: the node now leans left and is taller. */
  lemma LeftLeans(t: AvlTree, nl: AvlTree, key: int)
    requires t.Node? && IsAvl(t) && key < t.key
    requires GrownBy(t.left, nl, true, key) && t.bal == 0
    ensures GrownBy(t, Node(nl, t.key, -1, t.right), true, key)
  {
    NewLeftChild(t, nl, key, -1);
  }

  lemma LeftRotateLL(t: AvlTree, nl: AvlTree, key: int)
    requires t.Node? && IsAvl(t) && key < t.key
    requires GrownBy(t.left, nl, true, key) && t.bal == -1 && nl.bal == -1
    ensures nl.Node?
    ensures GrownBy(t, RotateLL(Node(nl, t.key, t.bal, t.right)), false, key)
  {
    NewLeftChild(t, nl, key, t.bal);
    RotateLLRebalances(nl, t.key, t.right);
  }

  lemma LeftRotateLR(t: AvlTree, nl: AvlTree, key: int)
    requires t.Node? && IsAvl(t) && key < t.key
    requires GrownBy(t.left, nl, true, key) && t.bal == -1 && nl.bal != -1
    ensures nl.Node? && nl.right.Node?
    ensures GrownBy(t, RotateLR(Node(nl, t.key, t.bal, t.right)), false, key)
  {
    RotateLRRebalances(nl, t.key, t.right);
    NewLeftChild(t, nl, key, t.bal);
  }

  /** The mirror image of `BalanceLeft` for growth on the right. */
  function BalanceRight(t: AvlTree, nr: AvlTree, grew: bool, key: int): (res: (AvlTree, bool))
    requires t.Node? && IsAvl(t) && key > t.key
    requires GrownBy(t.right, nr, grew, key)
    ensures GrownBy(t, res.0, res.1, key)
  {
    var l, k, b := t.left, t.key, t.bal;
    if !grew || b == -1 then
      RightSettles(t, nr, grew, key);
      (Node(l, k, if grew then 0 else b, nr), false)
    else if b == 0 then
      RightLeans(t, nr, key);
      (Node(l, k, 1, nr), true)
    else if nr.bal == 1 then
      RightRotateRR(t, nr, key);
      (RotateRR(Node(l, k, b, nr)), false)
    else
      RightRotateRL(t, nr, key);
      (RotateRL(Node(l, k, b, nr)), false)
  }

  lemma RightSettles(t: AvlTree, nr: AvlTree, grew: bool, key: int)
    requires t.Node? && IsAvl(t) && key > t.key
    requires GrownBy(t.right, nr, grew, key)
    requires !grew || t.bal == -1
    ensures GrownBy(t, Node(t.left, t.key, if grew then 0 else t.bal, nr), false, key)
  {
    NewRightChild(t, nr, key, if grew then 0 else t.bal);
  }

  lemma RightLeans(t: AvlTree, nr: AvlTree, key: int)
    requires t.Node? && IsAvl(t) && key > t.key
    requires GrownBy(t.right, nr, true, key) && t.bal == 0
    ensures GrownBy(t, Node(t.left, t.key, 1, nr), true, key)
  {
    NewRightChild(t, nr, key, 1);
  }

  lemma RightRotateRR(t: AvlTree, nr: AvlTree, key: int)
    requires t.Node? && IsAvl(t) && key > t.key
    requires GrownBy(t.right, nr, true, key) && t.bal == 1 && nr.bal == 1
    ensures nr.Node?
    ensures GrownBy(t, RotateRR(Node(t.left, t.key, t.bal, nr)), false, key)
  {
    NewRightChild(t, nr, key, t.bal);
    RotateRRRebalances(t.left, t.key, nr);
  }

  lemma RightRotateRL(t: AvlTree, nr: AvlTree, key: int)
    requires t.Node? && IsAvl(t) && key > t.key
    requires GrownBy(t.right, nr, true, key) && t.bal == 1 && nr.bal != 1
    ensures nr.Node? && nr.left.Node?
    ensures GrownBy(t, RotateRL(Node(t.left, t.key, t.bal, nr)), false, key)
  {
    RotateRLRebalances(t.left, t.key, nr);
    NewRightChild(t, nr, key, t.bal);
  }

  /**
   Hanging a search tree that holds the left subtree's keys plus `key < t.key`
   in place of the left subtree, under any balance value, keeps the search
   order and adds `key`; `key` was in `t` only if it was on the left.
   */
  lemma NewLeftChild(t: AvlTree, nl: AvlTree, key: int, b: int)
    requires t.Node? && IsBst(t) && key < t.key
    requires IsBst(nl) && Keys(nl) == Keys(t.left) + {key}
    ensures IsBst(Node(nl, t.key, b, t.right))
    ensures Keys(Node(nl, t.key, b, t.right)) == Keys(t) + {key}
    ensures key in Keys(t) <==> key in Keys(t.left)
  {
    forall x | x in Keys(nl)
      ensures x < t.key
    {
    }
    assert key !in Keys(t.right) by {
      forall x | x in Keys(t.right)
        ensures x != key
      {
      }
    }
  }

  /** Mirror image of `NewLeftChild`. */
  lemma NewRightChild(t: AvlTree, nr: AvlTree, key: int, b: int)
    requires t.Node? && IsBst(t) && key > t.key
    requires IsBst(nr) && Keys(nr) == Keys(t.right) + {key}
    ensures IsBst(Node(t.left, t.key, b, nr))
    ensures Keys(Node(t.left, t.key, b, nr)) == Keys(t) + {key}
    ensures key in Keys(t) <==> key in Keys(t.right)
  {
    forall x | x in Keys(nr)
      ensures t.key < x
    {
    }
    assert key !in Keys(t.left) by {
      forall x | x in Keys(t.left)
        ensures x != key
      {
      }
    }
  }

  /** `insert`: the wrapper that starts with the flag cleared and keeps only the tree. */
  function Insert(t: AvlTree, key: int): (r: AvlTree)
    requires IsAvl(t)
    ensures IsAvl(r) && Keys(r) == Keys(t) + {key}
    ensures Height(r) == Height(t) || Height(r) == Height(t) + 1
    ensures key in Keys(t) ==> r == t
  {
    InsertAvl(t, key).0
  }

  /** A new key adds one node, a present key none; inserting the same key twice is inserting it once. */
  lemma InsertSize(t: AvlTree, key: int)
    requires IsAvl(t)
    ensures Size(Insert(t, key)) == Size(t) + (if key in Keys(t) then 0 else 1)
    ensures Insert(Insert(t, key), key) == Insert(t, key)
  {
    SizeIsKeyCount(t);
    SizeIsKeyCount(Insert(t, key));
  }

  // ---------------------------------------------------------------------------
  // Height bound

  /** The fewest nodes a balanced tree of height h can have: N(h) = N(h-1) + N(h-2) + 1. */
  function MinAvlSize(h: nat): nat
  {
    if h == 0 then 0 else if h == 1 then 1 else MinAvlSize(h - 1) + MinAvlSize(h - 2) + 1
  }

  lemma {:induction false} MinAvlSizeMonotone(a: nat, b: nat)
    requires a <= b
    ensures MinAvlSize(a) <= MinAvlSize(b)
    decreases b
  {
    if a < b {
      MinAvlSizeMonotone(a, b - 1);
    }
  }

  /** A balanced tree of height h holds at least N(h) nodes. */
  lemma {:induction false} BalancedSizeAtLeast(t: AvlTree)
    requires Balanced(t)
    ensures Size(t) >= MinAvlSize(Height(t))
  {
    match t
    case Empty =>
    case Node(l, _, _, r) =>
      BalancedSizeAtLeast(l);
      BalancedSizeAtLeast(r);
      MinAvlSizeStep(Height(l), Height(r), Height(t));
  }

  /** Children of heights differing by at most one need at least N of the parent's height, less one. */
  lemma MinAvlSizeStep(hl: nat, hr: nat, h: nat)
    requires -1 <= hr - hl <= 1 && h == 1 + Max(hl, hr)
    ensures MinAvlSize(hl) + MinAvlSize(hr) + 1 >= MinAvlSize(h)
  {
    if h >= 2 {
      if hl >= hr {
        MinAvlSizeMonotone(h - 2, hr);
      } else {
        MinAvlSizeMonotone(h - 2, hl);
      }
    }
  }

  lemma {:induction false} MinAvlSizeExponential(h: nat)
    ensures MinAvlSize(h) + 1 >= Pow2(h / 2)
  {
    if h >= 2 {
      MinAvlSizeExponential(h - 2);
      MinAvlSizeMonotone(h - 2, h - 1);
      assert Pow2(h / 2) == 2 * Pow2((h - 2) / 2);
    }
  }

  /**
   An AVL tree of height h has at least 2^(h/2) - 1 nodes, so its height is
   at most about twice the binary logarithm of its size.
   */
  lemma AvlHeightLogarithmic(t: AvlTree)
    requires Balanced(t)
    ensures Pow2(Height(t) / 2) <= Size(t) + 1
  {
    BalancedSizeAtLeast(t);
    MinAvlSizeExponential(Height(t));
  }
}

=== FILE: bits.dfy ===
/**
 Integer helpers of the universal-code program (nekal.c; kod.c lines 7-37
 hold the same text): floor log2, bit length, fixed-width binary rendering
 and the mantissa below the leading one. Strings are sequences of the
 characters '0' and '1', most significant bit first.
 */
module Bits {

  function Pow2(k: nat): (p: nat)
    ensures p >= 1
  {
    if k == 0 then 1 else 2 * Pow2(k - 1)
  }

  lemma PowMonotone(a: nat, b: nat)
    requires a <= b
    ensures Pow2(a) <= Pow2(b)
    decreases b
  {
    if a < b {
      PowMonotone(a, b - 1);
    }
  }

  /** `get_log2_floor`: halve `n` until it reaches 1, counting the halvings; 0 when n <= 0. */
  function Log2Floor(n: int): (k: nat)
    ensures n >= 1 ==> Pow2(k) <= n < Pow2(k + 1)
    ensures n <= 1 ==> k == 0
  {
    if n <= 1 then 0 else 1 + Log2Floor(n / 2)
  }

  /**
   `get_log2_floor` as written: shift `n` right until it is 1 and count the
   shifts. It agrees with the recursive definition and brackets `n`
   between consecutive powers of two.
   */
  method GetLog2Floor(n: int) returns (order: int)
    ensures order == Log2Floor(n)
    ensures n >= 1 ==> Pow2(order) <= n < Pow2(order + 1)
  {
    if n <= 0 {
      return 0;
    }
    order := 0;
    var m := n;
    while m > 1
      invariant m >= 1
      invariant order + Log2Floor(m) == Log2Floor(n)
      decreases m
    {
      m := m / 2;
      order := order + 1;
    }
  }

  /** The floor log2 is the only exponent whose power brackets `n`. */
  lemma Log2FloorUnique(n: int, k: nat)
    requires Pow2(k) <= n < Pow2(k + 1)
    ensures Log2Floor(n) == k
  {
    var j := Log2Floor(n);
    if j < k {
      PowMonotone(j + 1, k);
    } else if j > k {
      PowMonotone(k + 1, j);
    }
  }

  /** `get_full_bit_length`: number of binary digits of `n`; 0 when n <= 0. */
  function BitLength(n: int): (len: nat)
    ensures n >= 1 ==> len >= 1 && Pow2(len - 1) <= n < Pow2(len)
    ensures n <= 0 ==> len == 0
    ensures n >= 1 ==> len == Log2Floor(n) + 1
  {
    if n <= 0 then 0 else Log2Floor(n) + 1
  }

  /**
   Bit `i` of `v` as `(v >> i) & 1` computes it: an arithmetic right shift is
   floor division by 2^i, and `& 1` keeps the remainder modulo 2 (both agree
   with two's complement for negative `v`).
   */
  function Bit(v: int, i: nat): int
  {
    (v / Pow2(i)) % 2
  }

  function BitChar(v: int, i: nat): char
  {
    if Bit(v, i) == 1 then '1' else '0'
  }

  /** `to_bin_fixed`: bits `bits-1` down to 0 of `value`; nothing when bits <= 0. */
  function ToBinFixed(value: int, bits: int): (s: string)
    ensures |s| == if bits > 0 then bits else 0
  {
    if bits <= 0 then [] else [BitChar(value, bits - 1)] + ToBinFixed(value, bits - 1)
  }

  /**
   `get_mantissa`: the loop of `to_bin_fixed` again, applied to the `order`
   bits below the leading one: `order` digits (none for order <= 0) that read
   back as the low `order` bits of `n`.
   */
  function GetMantissa(n: int, order: int): (m: string)
    ensures |m| == if order > 0 then order else 0
    ensures order >= 0 ==> BinValue(m) == n % Pow2(order)
  {
    if order >= 0 then
      ToBinFixedRoundTrip(n, order);
      ToBinFixed(n, order)
    else ToBinFixed(n, order)
  }

  /** The full binary form of `n` (bit-length many digits), as the omega code renders each group. */
  function Binary(n: int): string
  {
    ToBinFixed(n, BitLength(n))
  }

  /** Value of a string of binary digits, most significant first; any other character reads as 0. */
  function BinValue(s: string): nat
  {
    if |s| == 0 then 0 else (if s[0] == '1' then 1 else 0) * Pow2(|s| - 1) + BinValue(s[1..])
  }

  lemma {:induction false} BinValueRange(s: string)
    ensures 0 <= BinValue(s) < Pow2(|s|)
  {
    if |s| > 0 {
      BinValueRange(s[1..]);
    }
  }

  lemma MulAtLeast(x: int, m: int)
    requires x >= 1 && m > 0
    ensures x * m >= m
  {
  }

  /** Division with remainder is unique. */
  lemma DivModUnique(v: int, m: int, a: int, b: int)
    requires m > 0 && 0 <= b < m && v == a * m + b
    ensures v / m == a && v % m == b
  {
    var q, r := v / m, v % m;
    assert (a - q) * m == r - b;
    if a - q >= 1 {
      MulAtLeast(a - q, m);
    } else if q - a >= 1 {
      assert (q - a) * m == b - r;
      MulAtLeast(q - a, m);
    }
  }

  /** Bit `k` of `v` times 2^k, plus the bits below, is `v` modulo 2^(k+1). */
  lemma TopBitSplit(v: int, k: nat)
    ensures Bit(v, k) * Pow2(k) + v % Pow2(k) == v % Pow2(k + 1)
  {
    var p := Pow2(k);
    var q, r := v / p, v % p;
    var a, c := q / 2, q % 2;
    assert v == q * p + r;
    assert q == 2 * a + c;
    assert v == a * (2 * p) + (c * p + r) by {
      assert q * p == (2 * a + c) * p;
    }
    assert 0 <= c * p + r < 2 * p by {
      assert c == 0 || c == 1;
    }
    DivModUnique(v, 2 * p, a, c * p + r);
  }

  /** Reading back the fixed-width rendering gives `value` modulo 2^bits. */
  lemma {:induction false} ToBinFixedRoundTrip(value: int, bits: nat)
    ensures BinValue(ToBinFixed(value, bits)) == value % Pow2(bits)
  {
    if bits > 0 {
      var s := ToBinFixed(value, bits);
      assert s[1..] == ToBinFixed(value, bits - 1);
      ToBinFixedRoundTrip(value, bits - 1);
      TopBitSplit(value, bits - 1);
    }
  }

  /** A string of binary digits only, the alphabet `to_bin_fixed` writes. */
  predicate IsBinary(s: string)
  {
    forall i :: 0 <= i < |s| ==> s[i] == '0' || s[i] == '1'
  }

  /** Every character of the fixed-width rendering is '0' or '1'. */
  lemma {:induction false} ToBinFixedDigits(value: int, bits: int)
    ensures IsBinary(ToBinFixed(value, bits))
  {
    if bits > 0 {
      ToBinFixedDigits(value, bits - 1);
      assert ToBinFixed(value, bits) == [BitChar(value, bits - 1)] + ToBinFixed(value, bits - 1);
    }
  }

  /** Two strings of binary digits of the same length and value are equal. */
  lemma {:induction false} BinValueInjective(s: string, t: string)
    requires IsBinary(s) && IsBinary(t) && |s| == |t|
    requires BinValue(s) == BinValue(t)
    ensures s == t
  {
    if |s| > 0 {
      BinValueRange(s[1..]);
      BinValueRange(t[1..]);
      assert s[0] == t[0];
      assert IsBinary(s[1..]) && IsBinary(t[1..]) by {
        forall i | 0 <= i < |s| - 1
          ensures s[1..][i] == s[i + 1] && t[1..][i] == t[i + 1]
        {
        }
      }
      BinValueInjective(s[1..], t[1..]);
      assert s == [s[0]] + s[1..];
      assert t == [t[0]] + t[1..];
    }
  }

  /**
   The fixed-width rendering is the only string of `bits` binary digits that
   reads back as `value` modulo 2^bits: the low bits of the value, most
   significant first.
   */
  lemma ToBinFixedUnique(value: int, bits: nat, s: string)
    requires |s| == bits && IsBinary(s) && BinValue(s) == value % Pow2(bits)
    ensures s == ToBinFixed(value, bits)
  {
    ToBinFixedDigits(value, bits);
    ToBinFixedRoundTrip(value, bits);
    BinValueInjective(s, ToBinFixed(value, bits));
  }

  /** The bits above the top one are 0: for 0 <= n < 2^k, n mod 2^k is n itself. */
  lemma SmallMod(n: int, k: nat)
    requires 0 <= n < Pow2(k)
    ensures n % Pow2(k) == n
  {
    DivModUnique(n, Pow2(k), 0, n);
  }

  /** The binary form of n >= 1 starts with '1', has BitLength(n) digits and reads back as n. */
  lemma BinaryRoundTrip(n: int)
    requires n >= 1
    ensures |Binary(n)| == BitLength(n)
    ensures Binary(n)[0] == '1'
    ensures BinValue(Binary(n)) == n
  {
    var len := BitLength(n);
    ToBinFixedRoundTrip(n, len);
    SmallMod(n, len);
    DivModUnique(n, Pow2(len - 1), 1, n - Pow2(len - 1));
  }

  /**
   Proof helper with no counterpart in the C: the second half of
   `MantissaCompletesBinary` with the order passed as a plain value, so that
   callers need not unfold Log2Floor.
   */
  lemma MantissaBelowLeadingOne(n: int, order: int)
    requires n >= 1 && order == Log2Floor(n)
    ensures BinValue(GetMantissa(n, order)) == n - Pow2(order)
  {
    MantissaCompletesBinary(n);
  }

  /**
   With order = floor log2 n, a '1' followed by the order-bit mantissa is the
   binary form of n; the mantissa alone reads back as n - 2^order.
   */
  lemma MantissaCompletesBinary(n: int)
    requires n >= 1
    ensures ['1'] + GetMantissa(n, Log2Floor(n)) == Binary(n)
    ensures BinValue(GetMantissa(n, Log2Floor(n))) == n - Pow2(Log2Floor(n))
  {
    var k := Log2Floor(n);
    BinaryRoundTrip(n);
    assert Binary(n) == [BitChar(n, k)] + ToBinFixed(n, k);
    ToBinFixedRoundTrip(n, k);
    DivModUnique(n, Pow2(k), 1, n - Pow2(k));
  }
}

=== FILE: bst.dfy ===
/**
 Unbalanced binary search trees: duplicate-ignoring insertion, minimum-node
 search and deletion by in-order-successor promotion (3.4/3.4.c), lookup and
 the pointer-to-pointer insertion (3.3/3-3lab.c). Nodes carry no balance,
 so the trees are `Tree<()>`.
 */
module Bst {
  import opened Trees

  type PlainTree = Tree<()>

  /** A childless node (`newNode` of 3.4.c, `create_vertex` of 3-3lab.c). */
  function NewNode(key: int): (t: PlainTree)
    ensures IsBst(t) && Keys(t) == {key} && InOrder(t) == [key]
    ensures Size(t) == 1 && Height(t) == 1
  {
    Node(Empty, key, (), Empty)
  }

  /**
   Recursive insertion: descend by comparison, hang a new node on the empty
   slot reached, and leave the tree alone when the key is already there
   (`insert` of 3.4.c; `add_RecursiveSDP` of 3-3lab.c is the same recursion).
   */
  function Insert(t: PlainTree, key: int): (r: PlainTree)
    ensures Keys(r) == Keys(t) + {key}
    ensures IsBst(t) ==> IsBst(r)
    ensures IsBst(t) && key in Keys(t) ==> r == t
    ensures Size(r) == Size(t) || Size(r) == Size(t) + 1
  {
    match t
    case Empty => NewNode(key)
    case Node(l, k, _, rt) =>
      if key < k then
        var nl := Insert(l, key);
        assert IsBst(t) ==> key !in Keys(rt) && forall x :: x in Keys(nl) ==> x < k;
        t.(left := nl)
      else if key > k then
        var nr := Insert(rt, key);
        assert IsBst(t) ==> key !in Keys(l) && forall x :: x in Keys(nr) ==> k < x;
        t.(right := nr)
      else t
  }

  /** A new key adds exactly one node; a present key adds none. */
  lemma InsertSize(t: PlainTree, key: int)
    requires IsBst(t)
    ensures Size(Insert(t, key)) == Size(t) + (if key in Keys(t) then 0 else 1)
    ensures Insert(Insert(t, key), key) == Insert(t, key)
  {
    SizeIsKeyCount(t);
    SizeIsKeyCount(Insert(t, key));
  }

  /**
   `minValueNode`: follow left children while there is one. Returns the empty
   tree for the empty tree, otherwise the node holding the smallest key.
   */
  function MinValueNode(t: PlainTree): (m: PlainTree)
    ensures t.Empty? <==> m.Empty?
    ensures m.Node? ==> m.left.Empty? && m.key in Keys(t)
    ensures m.Node? && IsBst(t) ==> forall x :: x in Keys(t) ==> m.key <= x
  {
    if t.Node? && t.left.Node? then MinValueNode(t.left) else t
  }

  /**
   `deleteNode`: find the key; a node with at most one child is replaced by
   the other child; a node with two children takes the key of the minimum of
   its right subtree, which is then deleted from that subtree.
   */
  function Delete(t: PlainTree, key: int): (r: PlainTree)
    ensures key !in Keys(t) ==> r == t
    ensures Keys(r) <= Keys(t)
    ensures IsBst(t) ==> IsBst(r) && Keys(r) == Keys(t) - {key}
  {
    match t
    case Empty => t
    case Node(l, k, _, rt) =>
      if key < k then t.(left := Delete(l, key))
      else if key > k then t.(right := Delete(rt, key))
      else if l.Empty? then rt
      else if rt.Empty? then l
      else
        var m := MinValueNode(rt).key;
        t.(key := m, right := Delete(rt, m))
  }

  /** Deleting a present key removes exactly one node; an absent key removes none. */
  lemma DeleteSize(t: PlainTree, key: int)
    requires IsBst(t)
    ensures Size(Delete(t, key)) == Size(t) - (if key in Keys(t) then 1 else 0)
  {
    SizeIsKeyCount(t);
    SizeIsKeyCount(Delete(t, key));
  }

  /**
   What deleting the root's own key does: a root with no left child gives
   way to its right subtree, a root with only a left child to that child; a
   root with two children keeps its left subtree, takes the smallest key of
   its right subtree and loses that key from the right subtree.
   */
  lemma DeleteAtRoot(t: PlainTree)
    requires t.Node? && IsBst(t)
    ensures t.left.Empty? ==> Delete(t, t.key) == t.right
    ensures t.left.Node? && t.right.Empty? ==> Delete(t, t.key) == t.left
    ensures t.left.Node? && t.right.Node? ==>
              var r := Delete(t, t.key);
              && r.Node? && r.left == t.left
              && r.key in Keys(t.right)
              && (forall x :: x in Keys(t.right) ==> r.key <= x)
              && Keys(r.right) == Keys(t.right) - {r.key}
  {
  }

  /**
   `Search` of 3-3lab.c: walk down from the root, left when the key is
   smaller, right when larger, stop on equality; 1 if a node was found.
   */
  method Search(t: PlainTree, x: int) returns (found: int)
    ensures found == 0 || found == 1
    ensures found == 1 ==> x in Keys(t)
    ensures IsBst(t) ==> (found == 1 <==> x in Keys(t))
  {
    var p := t;
    while p.Node?
      invariant Keys(p) <= Keys(t)
      invariant IsBst(t) ==> IsBst(p) && (x in Keys(t) ==> x in Keys(p))
      decreases p
    {
      if x < p.key {
        p := p.left;
      } else if x > p.key {
        p := p.right;
      } else {
        break;
      }
    }
    found := if p.Node? then 1 else 0;
  }

  /**
   One step of the descent of `add_DoubleSDP`: the link followed (left or
   right) together with the node's key and the sibling subtree left behind.
   */
  datatype Step = WentLeft(key: int, right: PlainTree) | WentRight(left: PlainTree, key: int)

  /** Put `sub` back into the slot that the recorded descent `path` points at. */
  function Plug(path: seq<Step>, sub: PlainTree): PlainTree
  {
    if |path| == 0 then sub
    else
      var last := path[|path| - 1];
      var parent := match last
        case WentLeft(k, r) => Node(sub, k, (), r)
        case WentRight(l, k) => Node(l, k, (), sub);
      Plug(path[..|path| - 1], parent)
  }

  /**
   `add_DoubleSDP`: iterative insertion through a pointer to the link being
   examined. The pointer is modelled by the descent path; writing the new
   node through it is plugging the node into that path. It builds the same
   tree as the recursive insertion.
   */
  method AddDouble(t: PlainTree, data: int) returns (r: PlainTree)
    ensures Keys(r) == Keys(t) + {data}
    ensures IsBst(t) ==> IsBst(r)
    ensures IsBst(t) && data in Keys(t) ==> r == t
    ensures r == Insert(t, data)
  {
    var path: seq<Step> := [];
    var cur := t;
    while cur.Node?
      invariant Plug(path, cur) == t
      invariant Plug(path, Insert(cur, data)) == Insert(t, data)
      decreases cur
    {
      assert cur.bal == ();
      assert cur == Node(cur.left, cur.key, (), cur.right);
      if data < cur.key {
        assert (path + [WentLeft(cur.key, cur.right)])[..|path|] == path;
        path := path + [WentLeft(cur.key, cur.right)];
        cur := cur.left;
      } else if data > cur.key {
        assert (path + [WentRight(cur.left, cur.key)])[..|path|] == path;
        path := path + [WentRight(cur.left, cur.key)];
        cur := cur.right;
      } else {
        return t;
      }
    }
    r := Plug(path, NewNode(data));
  }
}

=== FILE: codes.dfy ===
/**
 The three universal codes of nekal.c (kod.c lines 7-92 hold the same
 text), rendered as strings of '0' and '1' with spaces between fields:

 - fixed + variable: the bit length of n as four binary digits, then a
   space and the bits of n below its leading one (nothing for n <= 1);
 - Elias gamma: floor(log2 n) zeros, then the binary form of n;
 - Elias omega: the recursive length groups, each followed by a space,
   closed by a '0'.

 Each code comes with a decoder written from the format alone, and the
 round trip is proved.
 */
module Codes {
  import opened Bits

  datatype Option<T> = None | Some(value: T)

  // ---------------------------------------------------------------------------
  // Fixed + variable

  /**
   `code_fixed_variable`: four-digit length field, then (only when the
   mantissa is not empty) a space and the mantissa. For n <= 0 the length
   is 0 and the code is "0000".
   */
  function CodeFixedVariable(n: int): (r: string)
    ensures |r| >= 4 && r[..4] == ToBinFixed(BitLength(n), 4)
    ensures n <= 1 ==> |r| == 4
    ensures n >= 2 ==> |r| == 4 + BitLength(n) && r[4] == ' '
  {
    var fullLen := BitLength(n);
    var orderPart := ToBinFixed(fullLen, 4);
    var mantissa := GetMantissa(n, fullLen - 1);
    if |mantissa| == 0 then orderPart else orderPart + " " + mantissa
  }

  /**
   Read the length field L; L <= 1 stands for the value L itself, otherwise
   a space and L - 1 mantissa digits follow and the leading one is put back.
   */
  function DecodeFixedVariable(s: string): Option<int>
  {
    if |s| < 4 then None
    else
      var len := BinValue(s[..4]);
      if len <= 1 then (if |s| == 4 then Some(len) else None)
      else if |s| == 4 + len && s[4] == ' ' then Some(Pow2(len - 1) + BinValue(s[5..]))
      else None
  }

  /** Every n from 0 up to 2^15 - 1 (bit length at most 15, so the field holds it) decodes back. */
  lemma FixedVariableRoundTrip(n: int)
    requires 0 <= n < Pow2(15)
    ensures DecodeFixedVariable(CodeFixedVariable(n)) == Some(n)
  {
    var r := CodeFixedVariable(n);
    var len := BitLength(n);
    assert len <= 15 by {
      if len > 15 {
        PowMonotone(15, len - 1);
      }
    }
    LengthFieldRoundTrip(len);
    if n >= 2 {
      MantissaField(n, len);
      DecodeLongCode(r, len, n);
    }
  }

  /** For n >= 2 the digits after the space read back as n without its leading one. */
  lemma MantissaField(n: int, len: int)
    requires n >= 2 && len == BitLength(n)
    ensures Pow2(len - 1) + BinValue(CodeFixedVariable(n)[5..]) == n
  {
    var m := GetMantissa(n, len - 1);
    assert CodeFixedVariable(n) == ToBinFixed(len, 4) + " " + m;
    AfterField(ToBinFixed(len, 4), m);
    MantissaBelowLeadingOne(n, len - 1);
  }

  lemma AfterField(field: string, tail: string)
    requires |field| == 4
    ensures (field + " " + tail)[5..] == tail
  {
  }

  lemma DecodeLongCode(s: string, len: int, v: int)
    requires len >= 2 && |s| == 4 + len && s[4] == ' '
    requires BinValue(s[..4]) == len && Pow2(len - 1) + BinValue(s[5..]) == v
    ensures DecodeFixedVariable(s) == Some(v)
  {
  }

  lemma LengthFieldRoundTrip(len: int)
    requires 0 <= len <= 15
    ensures BinValue(ToBinFixed(len, 4)) == len
  {
    assert Pow2(4) == 16;
    ToBinFixedRoundTrip(len, 4);
    SmallMod(len, 4);
  }

  /**
   From 2^15 on the bit length needs a fifth digit and the field keeps only
   the low four: numbers of bit length 16 get the field "0000", the field
   of 0. The field then no longer gives the length, and the decoder rejects
   such a code.
   */
  lemma FixedVariableFieldWraps(n: int)
    requires Pow2(15) <= n < Pow2(16)
    ensures CodeFixedVariable(n)[..4] == CodeFixedVariable(0)
    ensures DecodeFixedVariable(CodeFixedVariable(n)) == None
  {
    Log2FloorUnique(n, 15);
    assert BitLength(n) == 16;
    assert CodeFixedVariable(0) == ToBinFixed(0, 4);
    FieldOfSixteen();
    ToBinFixedRoundTrip(0, 4);
  }

  lemma FieldOfSixteen()
    ensures ToBinFixed(16, 4) == ToBinFixed(0, 4)
  {
    var a, b := ToBinFixed(16, 4), ToBinFixed(0, 4);
    forall i | 0 <= i < 4
      ensures a[i] == b[i]
    {
      var e := 3 - i;
      assert Pow2(e) <= 8 by {
        PowMonotone(e, 3);
      }
      assert (16 / Pow2(e)) % 2 == 0 by {
        assert Pow2(3) == 8;
        if e == 0 {
          assert Pow2(e) == 1;
        } else if e == 1 {
          assert Pow2(e) == 2;
        } else if e == 2 {
          assert Pow2(e) == 4;
        }
      }
    }
  }

  // ---------------------------------------------------------------------------
  // Elias gamma

  function Zeros(k: nat): (z: string)
    ensures |z| == k && forall i :: 0 <= i < k ==> z[i] == '0'
  {
    if k == 0 then "" else "0" + Zeros(k - 1)
  }

  /**
   `code_elias_gamma`: "-" for 0; otherwise floor(log2 n) zeros, a one, and
   the mantissa. A negative n has order 0 and gets "1", the code of 1.
   */
  function EliasGamma(n: int): (r: string)
    ensures n == 0 ==> r == "-"
    ensures n >= 1 ==> r == Zeros(Log2Floor(n)) + Binary(n) && |r| == 2 * Log2Floor(n) + 1
    ensures n < 0 ==> r == "1"
  {
    if n == 0 then "-"
    else
      var order := Log2Floor(n);
      assert n >= 1 ==> "1" + GetMantissa(n, order) == Binary(n) by {
        if n >= 1 {
          MantissaCompletesBinary(n);
        }
      }
      Zeros(order) + "1" + GetMantissa(n, order)
  }

  function LeadingZeros(s: string): (k: nat)
    ensures k <= |s| && forall i :: 0 <= i < k ==> s[i] == '0'
    ensures k < |s| ==> s[k] != '0'
  {
    if |s| > 0 && s[0] == '0' then 1 + LeadingZeros(s[1..]) else 0
  }

  /** Count the k leading zeros, expect a one and k more digits. */
  function DecodeGamma(s: string): Option<int>
  {
    var k := LeadingZeros(s);
    if |s| == 2 * k + 1 && s[k] == '1' then Some(Pow2(k) + BinValue(s[k + 1..])) else None
  }

  lemma {:induction false} LeadingZerosOfCode(k: nat, tail: string)
    requires |tail| > 0 && tail[0] == '1'
    ensures LeadingZeros(Zeros(k) + tail) == k
  {
    if k > 0 {
      assert (Zeros(k) + tail)[1..] == Zeros(k - 1) + tail;
      LeadingZerosOfCode(k - 1, tail);
    } else {
      assert Zeros(k) + tail == tail;
    }
  }

  /** Every positive n decodes back from its gamma code. */
  lemma GammaRoundTrip(n: int)
    requires n >= 1
    ensures DecodeGamma(EliasGamma(n)) == Some(n)
  {
    var k := Log2Floor(n);
    var m := GetMantissa(n, k);
    GammaShape(n, k);
    MantissaBelowLeadingOne(n, k);
    DecodeGammaOf(EliasGamma(n), k, m);
  }

  /** k zeros, a one and k digits decode to 2^k plus the value of the digits. */
  lemma DecodeGammaOf(code: string, k: nat, m: string)
    requires |m| == k && code == Zeros(k) + (['1'] + m)
    ensures DecodeGamma(code) == Some(Pow2(k) + BinValue(m))
  {
    var z := Zeros(k);
    assert LeadingZeros(code) == k by {
      LeadingZerosOfCode(k, ['1'] + m);
    }
    assert |code| == 2 * k + 1 && code[k] == '1';
    assert code[k + 1..] == m by {
      assert code[|z| + 1..] == m;
    }
  }

  lemma GammaShape(n: int, k: int)
    requires n >= 1 && k == Log2Floor(n)
    ensures EliasGamma(n) == Zeros(k) + (['1'] + GetMantissa(n, k))
  {
    MantissaCompletesBinary(n);
  }

  // ---------------------------------------------------------------------------
  // Elias omega

  /**
   The groups of the omega code of `c`, first group first: the binary form
   of c is preceded by the groups of its bit length minus one, down to 1.
   */
  function OmegaGroups(c: int): seq<string>
    decreases if c > 1 then c else 0
  {
    if c <= 1 then []
    else
      BitLengthShrinks(c);
      OmegaGroups(BitLength(c) - 1) + [Binary(c)]
  }

  /** For c >= 2 the bit length minus one is smaller than c, so the group chain ends. */
  lemma BitLengthShrinks(c: int)
    requires c >= 2
    ensures 1 <= BitLength(c) - 1 < c
  {
    var k := Log2Floor(c);
    assert k >= 1;
    PowAboveExponent(k);
  }

  lemma {:induction false} PowAboveExponent(k: nat)
    ensures k < Pow2(k)
  {
    if k > 0 {
      PowAboveExponent(k - 1);
    }
  }

  /** Each group followed by a space, then `tail`. */
  function JoinGroups(groups: seq<string>, tail: string): string
  {
    if |groups| == 0 then tail
    else JoinGroups(groups[..|groups| - 1], groups[|groups| - 1] + " " + tail)
  }

  /**
   `code_elias_omega`: "-" for 0, "0" for 1; otherwise start from "0" and,
   while the current value exceeds 1, put its binary form and a space in
   front and continue with its bit length minus one. Values below 0 never
   enter the loop and also give "0".
   */
  method EliasOmega(n: int) returns (r: string)
    ensures n == 0 ==> r == "-"
    ensures n != 0 ==> r == JoinGroups(OmegaGroups(n), "0")
    ensures n >= 1 ==> DecodeOmega(r) == Some(n)
  {
    if n == 0 {
      return "-";
    }
    if n == 1 {
      r := "0";
      OmegaRoundTrip(n);
      return;
    }
    var buffer := "0";
    var current := n;
    while current > 1
      invariant JoinGroups(OmegaGroups(current), buffer) == JoinGroups(OmegaGroups(n), "0")
      decreases if current > 1 then current else 0
    {
      var len := BitLength(current);
      var binVal := ToBinFixed(current, len);
      buffer := binVal + " " + buffer;
      BitLengthShrinks(current);
      current := len - 1;
    }
    r := buffer;
    if n >= 1 {
      OmegaRoundTrip(n);
    }
  }

  /**
   Standard omega decoding: start with N = 1; a '0' ends the code with
   value N; a group of N + 1 digits starting with '1' (then a space) gives
   the next N.
   */
  function DecodeOmegaFrom(s: string, n: nat): Option<int>
    decreases |s|
  {
    if |s| == 0 then None
    else if s[0] == '0' then (if |s| == 1 then Some(n) else None)
    else if |s| < n + 2 || s[n + 1] != ' ' then None
    else DecodeOmegaFrom(s[n + 2..], BinValue(s[..n + 1]))
  }

  function DecodeOmega(s: string): Option<int>
  {
    DecodeOmegaFrom(s, 1)
  }

  /** Decoding the groups of c, starting from N = 1, leaves N = c for what follows. */
  lemma {:induction false} OmegaGroupsDecode(c: int, tail: string)
    requires c >= 1
    ensures DecodeOmegaFrom(JoinGroups(OmegaGroups(c), tail), 1) == DecodeOmegaFrom(tail, c)
    decreases c
  {
    if c >= 2 {
      var p := BitLength(c) - 1;
      BitLengthShrinks(c);
      BinaryRoundTrip(c);
      var s := Binary(c) + " " + tail;
      assert JoinGroups(OmegaGroups(c), tail) == JoinGroups(OmegaGroups(p), s);
      OmegaGroupsDecode(p, s);
      assert s[..p + 1] == Binary(c) && s[p + 2..] == tail;
    }
  }

  /** Every positive n decodes back from its omega code. */
  lemma OmegaRoundTrip(n: int)
    requires n >= 1
    ensures DecodeOmega(JoinGroups(OmegaGroups(n), "0")) == Some(n)
  {
    OmegaGroupsDecode(n, "0");
  }
}

=== FILE: paging.dfy ===
/**
 The page-by-page listing of the record database in saod.c (main, lines
 90-158) and in course.c (main, lines 31-71): pages of 20 records, a page
 number changed by one-letter commands, and the window of records shown
 for a page. Console output and input are left out; a session is the
 sequence of command characters typed.
 */
module Paging {

  const PageSize := 20

  /**
   C's `/` on `int`: the quotient truncated toward zero, so the remainder
   a - q·b lies strictly within one divisor of 0 and has the sign of `a`.
   */
  function TruncDiv(a: int, b: int): (q: int)
    requires b > 0
    ensures a >= 0 ==> 0 <= a - q * b < b
    ensures a < 0 ==> -b < a - q * b <= 0
  {
    if a >= 0 then a / b else -((-a) / b)
  }

  /**
   `max_page = (total_records - 1) / PAGE_SIZE` with C division. An empty
   database gives (-1) / 20, which truncates to 0 (floor division would
   give -1); otherwise it is the number of the last page holding a record.
   */
  function MaxPage(total: int): (m: int)
    requires total >= 0
    ensures total == 0 ==> m == 0
    ensures total >= 1 ==> 0 <= m && m * PageSize < total <= (m + 1) * PageSize
  {
    TruncDiv(total - 1, PageSize)
  }

  /** The records shown for `page`: from page·20 up to 20 further, cut at the end of the data. */
  function Window(page: int, total: int): (w: (int, int))
    ensures w.0 == page * PageSize
    ensures w.1 <= total && w.1 <= w.0 + PageSize
    ensures w.1 == total || w.1 == w.0 + PageSize
  {
    var start := page * PageSize;
    var end := start + PageSize;
    (start, if end > total then total else end)
  }

  /** A page within range shows at most 20 records, all of them in the data, and at least one if there is any. */
  lemma WindowInRange(page: int, total: int)
    requires total >= 0 && 0 <= page <= MaxPage(total)
    ensures var w := Window(page, total);
            && 0 <= w.0 && w.1 <= total && w.1 - w.0 <= PageSize
            && (total >= 1 ==> w.0 < w.1)
  {
  }

  /** Consecutive pages tile the data: each page starts where the one before it ended. */
  lemma WindowsAdjacent(page: int, total: int)
    requires total >= 1 && 0 <= page < MaxPage(total)
    ensures Window(page, total).1 == Window(page + 1, total).0
  {
  }

  // ---------------------------------------------------------------------------
  // saod.c

  /**
   One command of saod.c: 'n' and 'p' move one page when that stays within
   0..max_page, 'N' and 'P' move ten pages and clamp to max_page and 0; any
   other character (the search 's'/'S', the quit 'q'/'Q', anything else)
   leaves the page alone.
   */
  function SaodStep(page: int, maxPage: int, command: char): (next: int)
    ensures 0 <= page <= maxPage ==> 0 <= next <= maxPage
    ensures command !in "npNP" ==> next == page
    ensures command == 'n' ==> next == if page < maxPage then page + 1 else page
    ensures command == 'p' ==> next == if page > 0 then page - 1 else page
    ensures command == 'N' ==> next == if page + 10 < maxPage then page + 10 else maxPage
    ensures command == 'P' ==> next == if page - 10 > 0 then page - 10 else 0
  {
    if command == 'n' then (if page < maxPage then page + 1 else page)
    else if command == 'p' then (if page > 0 then page - 1 else page)
    else if command == 'N' then
      var p := page + 10;
      if p > maxPage then maxPage else p
    else if command == 'P' then
      var p := page - 10;
      if p < 0 then 0 else p
    else page
  }

  /** 'n' followed by 'p' returns to the page, unless the page was already the last one. */
  lemma SaodNextThenPrevious(page: int, maxPage: int)
    requires 0 <= page < maxPage
    ensures SaodStep(SaodStep(page, maxPage, 'n'), maxPage, 'p') == page
  {
  }

  predicate IsQuit(command: char)
  {
    command == 'q' || command == 'Q'
  }

  /**
   The do-while loop of saod.c: act on each command in turn, stopping after
   the first 'q' or 'Q'. Returns the page numbers shown, starting with page 0:
   one page per command up to and including the first quit, each page the
   step of the one before.
   */
  function SaodSession(total: int, commands: seq<char>): (pages: seq<int>)
    requires total >= 0
    ensures |pages| >= 1 && pages[0] == 0
    ensures forall i :: 0 <= i < |pages| ==> 0 <= pages[i] <= MaxPage(total)
    ensures |pages| <= |commands| + 1
    ensures forall i :: 0 <= i < |pages| - 1 ==>
              !IsQuit(commands[i]) && pages[i + 1] == SaodStep(pages[i], MaxPage(total), commands[i])
    ensures |pages| == |commands| + 1 || IsQuit(commands[|pages| - 1])
  {
    SaodRun(0, MaxPage(total), commands)
  }

  function SaodRun(page: int, maxPage: int, commands: seq<char>): (pages: seq<int>)
    requires 0 <= page <= maxPage
    ensures |pages| >= 1 && pages[0] == page
    ensures forall i :: 0 <= i < |pages| ==> 0 <= pages[i] <= maxPage
    ensures |pages| <= |commands| + 1
    ensures forall i :: 0 <= i < |pages| - 1 ==>
              !IsQuit(commands[i]) && pages[i + 1] == SaodStep(pages[i], maxPage, commands[i])
    ensures |pages| == |commands| + 1 || IsQuit(commands[|pages| - 1])
    decreases |commands|
  {
    if |commands| == 0 || IsQuit(commands[0]) then [page]
    else [page] + SaodRun(SaodStep(page, maxPage, commands[0]), maxPage, commands[1..])
  }

  /** Every page a saod.c session shows is a non-empty window of the data, when there is data. */
  lemma SaodSessionWindows(total: int, commands: seq<char>, i: int)
    requires total >= 1 && 0 <= i < |SaodSession(total, commands)|
    ensures var w := Window(SaodSession(total, commands)[i], total);
            0 <= w.0 < w.1 <= total
  {
    WindowInRange(SaodSession(total, commands)[i], total);
  }

  // ---------------------------------------------------------------------------
  // course.c

  /**
   One command of course.c: 'n' or 'N' advances only if the next page
   would start inside the data, 'p' or 'P' goes back only from a page
   above 0; anything else leaves the page alone.
   */
  function CourseStep(page: int, total: int, command: char): (next: int)
    ensures page >= 0 && (total > 0 ==> page * PageSize < total) ==>
              next >= 0 && (total > 0 ==> next * PageSize < total)
    ensures command !in "npNP" ==> next == page
    ensures command == 'n' || command == 'N' ==> next == if (page + 1) * PageSize < total then page + 1 else page
    ensures command == 'p' || command == 'P' ==> next == if page > 0 then page - 1 else page
  {
    if command == 'n' || command == 'N' then
      (if (page + 1) * PageSize < total then page + 1 else page)
    else if command == 'p' || command == 'P' then
      (if page > 0 then page - 1 else page)
    else page
  }

  /**
   On a non-empty database and a page in range, course.c's one-page moves
   agree with saod.c's 'n' and 'p'; its 'N' and 'P' are one-page moves too,
   where saod.c jumps ten.
   */
  lemma CourseAgreesWithSaod(page: int, total: int)
    requires total >= 1 && 0 <= page <= MaxPage(total)
    ensures CourseStep(page, total, 'n') == SaodStep(page, MaxPage(total), 'n')
    ensures CourseStep(page, total, 'p') == SaodStep(page, MaxPage(total), 'p')
    ensures CourseStep(page, total, 'N') == CourseStep(page, total, 'n')
    ensures CourseStep(page, total, 'P') == CourseStep(page, total, 'p')
  {
    var m := MaxPage(total);
    if page < m {
      assert (page + 1) * PageSize <= m * PageSize;
    }
  }

  /**
   The pages a course.c session shows, from `page` until the first 'q' or
   'Q': one page per command up to and including the first quit, each page
   the step of the one before.
   */
  function CourseRun(page: int, total: int, commands: seq<char>): (pages: seq<int>)
    requires page >= 0 && (total > 0 ==> page * PageSize < total)
    ensures |pages| >= 1 && pages[0] == page
    ensures forall i :: 0 <= i < |pages| ==> pages[i] >= 0 && (total > 0 ==> pages[i] * PageSize < total)
    ensures |pages| <= |commands| + 1
    ensures forall i :: 0 <= i < |pages| - 1 ==>
              !IsQuit(commands[i]) && pages[i + 1] == CourseStep(pages[i], total, commands[i])
    ensures |pages| == |commands| + 1 || IsQuit(commands[|pages| - 1])
    decreases |commands|
  {
    if |commands| == 0 || IsQuit(commands[0]) then [page]
    else [page] + CourseRun(CourseStep(page, total, commands[0]), total, commands[1..])
  }
}

=== FILE: perfect.dfy ===
/**
 The perfectly balanced search tree ("ISDP") of 3-3lab.c: built from a sorted
 array by taking the middle element as root and recursing on both halves.
 */
module PerfectTree {
  import opened Bits
  import opened Trees
  import Bst

  /** At every node the right subtree holds as many nodes as the left one, or one more. */
  ghost predicate PerfectlyBalanced<B>(t: Tree<B>)
  {
    match t
    case Empty => true
    case Node(l, _, _, r) =>
      PerfectlyBalanced(l) && PerfectlyBalanced(r) && 0 <= Size(r) - Size(l) <= 1
  }

  /**
   `BuildISDP(L, R, A)`: the empty tree when L > R; otherwise the node A[m],
   m = (L + R) / 2, over the trees built from A[L..m-1] and A[m+1..R].
   Indices are non-negative, so Dafny's division agrees with C's here.
   */
  function BuildIsdp(lo: int, hi: int, a: seq<int>): (t: Bst.PlainTree)
    requires 0 <= lo <= hi + 1 <= |a|
    ensures InOrder(t) == a[lo..hi + 1]
    ensures PerfectlyBalanced(t)
    decreases hi - lo
  {
    if lo > hi then Empty
    else
      var m := (lo + hi) / 2;
      assert lo <= m <= hi && 0 <= (hi - m) - (m - lo) <= 1;
      var l := BuildIsdp(lo, m - 1, a);
      var r := BuildIsdp(m + 1, hi, a);
      assert Size(l) == m - lo && Size(r) == hi - m;
      SliceAroundMiddle(a, lo, m, hi + 1);
      Node(l, a[m], (), r)
  }

  lemma SliceAroundMiddle(a: seq<int>, lo: int, m: int, hi: int)
    requires 0 <= lo <= m < hi <= |a|
    ensures a[lo..hi] == a[lo..m] + [a[m]] + a[m + 1..hi]
  {
  }

  /** Built from strictly increasing keys, the tree is a search tree holding exactly those keys. */
  lemma BuildIsdpIsBst(lo: int, hi: int, a: seq<int>)
    requires 0 <= lo <= hi + 1 <= |a|
    requires StrictlyIncreasing(a[lo..hi + 1])
    ensures IsBst(BuildIsdp(lo, hi, a))
    ensures forall x :: x in Keys(BuildIsdp(lo, hi, a)) <==> x in a[lo..hi + 1]
  {
    var t := BuildIsdp(lo, hi, a);
    BstIffSortedInOrder(t);
    InOrderHasKeys(t);
  }

  lemma BitLengthMonotone(a: int, b: int)
    requires 0 <= a <= b
    ensures BitLength(a) <= BitLength(b)
  {
    if a >= 1 && BitLength(a) > BitLength(b) {
      PowMonotone(BitLength(b), BitLength(a) - 1);
    }
  }

  lemma BitLengthHalf(n: int)
    requires n >= 1
    ensures BitLength(n) == BitLength(n / 2) + 1
  {
  }

  /** A perfectly balanced tree of n nodes has height BitLength(n) = floor(log2 n) + 1. */
  lemma {:induction false} PerfectHeight<B>(t: Tree<B>)
    requires PerfectlyBalanced(t)
    ensures Height(t) == BitLength(Size(t))
  {
    match t
    case Empty =>
    case Node(l, _, _, r) =>
      PerfectHeight(l);
      PerfectHeight(r);
      BitLengthMonotone(Size(l), Size(r));
      BitLengthHalf(Size(t));
      assert Size(t) / 2 == Size(r);
  }

  /** No tree of n nodes is lower than BitLength(n). */
  lemma HeightAtLeastBitLength<B>(t: Tree<B>)
    ensures Height(t) >= BitLength(Size(t))
  {
    SizeAtMostFull(t);
    BitLengthBelow(Size(t), Height(t));
  }

  /**
   Proof helper with no counterpart in the C: HeightAtLeastBitLength with the
   size passed as a plain value, which keeps the proofs below small.
   */
  lemma HeightAtLeastBitLengthOfSize<B>(t: Tree<B>, n: int)
    requires Size(t) == n
    ensures Height(t) >= BitLength(n)
  {
    HeightAtLeastBitLength(t);
  }

  lemma BitLengthBelow(n: int, h: nat)
    requires 0 <= n < Pow2(h)
    ensures BitLength(n) <= h
  {
    if n >= 1 && BitLength(n) > h {
      PowMonotone(h, BitLength(n) - 1);
    }
  }

  lemma BuildIsdpSize(lo: int, hi: int, a: seq<int>)
    requires 0 <= lo <= hi + 1 <= |a|
    ensures Size(BuildIsdp(lo, hi, a)) == hi - lo + 1
  {
    assert |InOrder(BuildIsdp(lo, hi, a))| == |a[lo..hi + 1]|;
  }

  /** The tree built from A[L..R] has height BitLength(R - L + 1). */
  lemma BuildIsdpHeight(lo: int, hi: int, a: seq<int>)
    requires 0 <= lo <= hi + 1 <= |a|
    ensures Height(BuildIsdp(lo, hi, a)) == BitLength(hi - lo + 1)
  {
    BuildIsdpSize(lo, hi, a);
    PerfectHeightOfSize(BuildIsdp(lo, hi, a), hi - lo + 1);
  }

  /** Proof helper with no counterpart in the C: PerfectHeight with the size passed as a plain value. */
  lemma PerfectHeightOfSize<B>(t: Tree<B>, n: int)
    requires PerfectlyBalanced(t) && Size(t) == n
    ensures Height(t) == BitLength(n)
  {
    PerfectHeight(t);
  }

  /** No tree holding as many keys as A[L..R] is lower than the one built from it. */
  lemma BuildIsdpMinimalHeight<B>(lo: int, hi: int, a: seq<int>, other: Tree<B>)
    requires 0 <= lo <= hi + 1 <= |a|
    requires Size(other) == hi - lo + 1
    ensures Height(BuildIsdp(lo, hi, a)) <= Height(other)
  {
    var n := hi - lo + 1;
    BuildIsdpSize(lo, hi, a);
    PerfectHeightOfSize(BuildIsdp(lo, hi, a), n);
    HeightAtLeastBitLengthOfSize(other, n);
  }
}

=== FILE: records.dfy ===
/**
 The deposit records of saod.c: the comparator that orders them by lawyer
 name and then by amount, the three-byte surname prefix, and the search
 that lists every record whose lawyer prefix matches a typed key.

 Character arrays are sequences of bytes (0..255, compared as unsigned
 char, as strncmp does); a 0 byte ends the C string stored in an array.
 */
module Records {

  type Byte = b: int | 0 <= b < 256

  /** `unsigned short`. */
  type UShort = x: int | 0 <= x < 0x1_0000

  const DepositorLength := 30
  const DateLength := 10
  const LawyerLength := 22

  datatype Record = Record(depositor: seq<Byte>, amount: UShort, date: seq<Byte>, lawyer: seq<Byte>)

  predicate WellFormed(r: Record)
  {
    |r.depositor| == DepositorLength && |r.date| == DateLength && |r.lawyer| == LawyerLength
  }

  // ---------------------------------------------------------------------------
  // C strings inside fixed arrays

  /** The string held in the first `n` bytes of `a`: everything before the first 0 byte, at most `n` bytes. */
  function CStr(a: seq<Byte>, n: nat): (s: seq<Byte>)
    requires n <= |a|
    ensures |s| <= n
  {
    if n == 0 || a[0] == 0 then [] else [a[0]] + CStr(a[1..], n - 1)
  }

  /**
   `strncmp(a, b, n)`: compare byte by byte, at most `n` bytes, stopping at
   the first difference or at a 0 byte both share. The C standard fixes only
   the sign of the result; it is modelled as -1, 0 or 1.
   */
  function StrNCmp(a: seq<Byte>, b: seq<Byte>, n: nat): (r: int)
    requires n <= |a| && n <= |b|
    ensures r == -1 || r == 0 || r == 1
  {
    if n == 0 then 0
    else if a[0] != b[0] then (if a[0] < b[0] then -1 else 1)
    else if a[0] == 0 then 0
    else StrNCmp(a[1..], b[1..], n - 1)
  }

  /** strncmp reports equality exactly when the two strings within the first `n` bytes are equal. */
  lemma {:induction false} StrNCmpZeroIff(a: seq<Byte>, b: seq<Byte>, n: nat)
    requires n <= |a| && n <= |b|
    ensures StrNCmp(a, b, n) == 0 <==> CStr(a, n) == CStr(b, n)
  {
    if n > 0 && a[0] == b[0] && a[0] != 0 {
      StrNCmpZeroIff(a[1..], b[1..], n - 1);
      var ta, tb := CStr(a[1..], n - 1), CStr(b[1..], n - 1);
      assert CStr(a, n) == [a[0]] + ta && CStr(b, n) == [b[0]] + tb;
      if CStr(a, n) == CStr(b, n) {
        assert ta == CStr(a, n)[1..] == CStr(b, n)[1..] == tb;
      }
    } else if n > 0 && a[0] != b[0] {
      if a[0] != 0 && b[0] != 0 {
        assert CStr(a, n)[0] != CStr(b, n)[0];
      } else if a[0] == 0 {
        assert |CStr(b, n)| > 0;
      } else {
        assert |CStr(a, n)| > 0;
      }
    }
  }

  /** Swapping the arguments of strncmp negates the result. */
  lemma {:induction false} StrNCmpAntisymmetric(a: seq<Byte>, b: seq<Byte>, n: nat)
    requires n <= |a| && n <= |b|
    ensures StrNCmp(b, a, n) == -StrNCmp(a, b, n)
  {
    if n > 0 && a[0] == b[0] && a[0] != 0 {
      StrNCmpAntisymmetric(a[1..], b[1..], n - 1);
    }
  }

  /** strncmp orders strings transitively. */
  lemma {:induction false} StrNCmpTransitive(a: seq<Byte>, b: seq<Byte>, c: seq<Byte>, n: nat)
    requires n <= |a| && n <= |b| && n <= |c|
    requires StrNCmp(a, b, n) <= 0 && StrNCmp(b, c, n) <= 0
    ensures StrNCmp(a, c, n) <= 0
    ensures StrNCmp(a, b, n) < 0 || StrNCmp(b, c, n) < 0 ==> StrNCmp(a, c, n) < 0
  {
    if n > 0 && a[0] == b[0] && b[0] == c[0] && a[0] != 0 {
      StrNCmpTransitive(a[1..], b[1..], c[1..], n - 1);
    }
  }

  /**
   Lexicographic order of byte strings: at the first position where the two
   differ the first has the smaller byte, or the first ends there while the
   second goes on.
   */
  predicate LexLess(s: seq<Byte>, t: seq<Byte>)
  {
    |t| > 0 && (|s| == 0 || s[0] < t[0] || (s[0] == t[0] && LexLess(s[1..], t[1..])))
  }

  /** strncmp is negative exactly when the first string within `n` bytes precedes the second lexicographically. */
  lemma {:induction false} StrNCmpNegativeIff(a: seq<Byte>, b: seq<Byte>, n: nat)
    requires n <= |a| && n <= |b|
    ensures StrNCmp(a, b, n) < 0 <==> LexLess(CStr(a, n), CStr(b, n))
  {
    if n > 0 && a[0] == b[0] && a[0] != 0 {
      StrNCmpNegativeIff(a[1..], b[1..], n - 1);
      var ta, tb := CStr(a[1..], n - 1), CStr(b[1..], n - 1);
      assert CStr(a, n) == [a[0]] + ta && CStr(b, n) == [b[0]] + tb;
      assert CStr(a, n)[1..] == ta && CStr(b, n)[1..] == tb;
    } else if n > 0 && a[0] != b[0] {
      if a[0] != 0 && b[0] != 0 {
        assert CStr(a, n)[0] == a[0] && CStr(b, n)[0] == b[0];
      } else if a[0] == 0 {
        assert |CStr(b, n)| > 0;
      } else {
        assert CStr(b, n) == [];
      }
    }
  }

  // ---------------------------------------------------------------------------
  // The comparator

  /**
   `compare_records`: the strncmp of the two 22-byte lawyer fields when it
   is not 0, otherwise -1, 1 or 0 as the first amount is smaller, larger or
   equal.
   */
  function CompareRecords(x: Record, y: Record): (r: int)
    requires WellFormed(x) && WellFormed(y)
    ensures r == -1 || r == 0 || r == 1
    ensures r == 0 <==> CStr(x.lawyer, LawyerLength) == CStr(y.lawyer, LawyerLength) && x.amount == y.amount
    ensures CStr(x.lawyer, LawyerLength) == CStr(y.lawyer, LawyerLength) ==>
              (r < 0 <==> x.amount < y.amount)
    ensures CStr(x.lawyer, LawyerLength) != CStr(y.lawyer, LawyerLength) ==>
              r == StrNCmp(x.lawyer, y.lawyer, LawyerLength)
    ensures r < 0 <==>
              || LexLess(CStr(x.lawyer, LawyerLength), CStr(y.lawyer, LawyerLength))
              || (CStr(x.lawyer, LawyerLength) == CStr(y.lawyer, LawyerLength) && x.amount < y.amount)
  {
    var lawyerCmp := StrNCmp(x.lawyer, y.lawyer, LawyerLength);
    StrNCmpZeroIff(x.lawyer, y.lawyer, LawyerLength);
    StrNCmpNegativeIff(x.lawyer, y.lawyer, LawyerLength);
    if lawyerCmp != 0 then lawyerCmp
    else if x.amount < y.amount then -1
    else if x.amount > y.amount then 1
    else 0
  }

  /** Swapping the records negates the comparison. */
  lemma CompareAntisymmetric(x: Record, y: Record)
    requires WellFormed(x) && WellFormed(y)
    ensures CompareRecords(y, x) == -CompareRecords(x, y)
  {
    StrNCmpAntisymmetric(x.lawyer, y.lawyer, LawyerLength);
  }

  /** The comparator is transitive, so it is a total preorder as qsort requires. */
  lemma CompareTransitive(x: Record, y: Record, z: Record)
    requires WellFormed(x) && WellFormed(y) && WellFormed(z)
    requires CompareRecords(x, y) <= 0 && CompareRecords(y, z) <= 0
    ensures CompareRecords(x, z) <= 0
  {
    var n := LawyerLength;
    StrNCmpZeroIff(x.lawyer, y.lawyer, n);
    StrNCmpZeroIff(y.lawyer, z.lawyer, n);
    StrNCmpZeroIff(x.lawyer, z.lawyer, n);
    StrNCmpTransitive(x.lawyer, y.lawyer, z.lawyer, n);
  }

  // ---------------------------------------------------------------------------
  // Prefix search

  /**
   `strncpy(dst, src, n)`: copy bytes of `src` up to its first 0 byte, at
   most `n`, and fill the rest of the `n` bytes with 0.
   */
  function StrNCpy(src: seq<Byte>, n: nat): (dst: seq<Byte>)
    requires n <= |src|
    ensures |dst| == n
  {
    if n == 0 then []
    else if src[0] == 0 then seq(n, _ => 0)
    else [src[0]] + StrNCpy(src[1..], n - 1)
  }

  /**
   `get_lawyer_surname_prefix`: the first three bytes of the lawyer field by
   strncpy, then a 0 at index 3. The result holds the same string as the
   field's first three bytes.
   */
  function LawyerPrefix(lawyer: seq<Byte>): (prefix: seq<Byte>)
    requires |lawyer| >= 3
    ensures |prefix| == 4 && prefix[3] == 0
    ensures CStr(prefix, 4) == CStr(lawyer, 3)
  {
    StrNCpyKeepsString(lawyer, 3);
    StrNCpy(lawyer, 3) + [0]
  }

  lemma {:induction false} StrNCpyKeepsString(src: seq<Byte>, n: nat)
    requires n <= |src|
    ensures CStr(StrNCpy(src, n) + [0], n + 1) == CStr(src, n)
  {
    if n > 0 {
      if src[0] == 0 {
        assert (StrNCpy(src, n) + [0])[0] == 0;
      } else {
        var x := StrNCpy(src, n) + [0];
        var y := StrNCpy(src[1..], n - 1) + [0];
        assert x == [src[0]] + y;
        assert x[1..] == y;
        assert CStr(x, n + 1) == [src[0]] + CStr(y, n);
        assert CStr(src, n) == [src[0]] + CStr(src[1..], n - 1);
        StrNCpyKeepsString(src[1..], n - 1);
      }
    } else {
      assert StrNCpy(src, n) + [0] == [0];
    }
  }

  /**
   The test of `search_by_lawyer_prefix`: strncmp of the record's prefix and
   the key over 3 bytes is 0, which holds exactly when the lawyer's name and
   the key agree as strings on their first three bytes.
   */
  predicate Matches(r: Record, key: seq<Byte>)
    requires WellFormed(r) && |key| >= 3
    ensures Matches(r, key) <==> CStr(r.lawyer, 3) == CStr(key, 3)
  {
    var p := LawyerPrefix(r.lawyer);
    StrNCmpZeroIff(p, key, 3);
    PrefixString(p);
    StrNCmp(p, key, 3) == 0
  }

  /** With a 0 at index 3, the string in the first three bytes is the string in all four. */
  lemma PrefixString(p: seq<Byte>)
    requires |p| == 4 && p[3] == 0
    ensures CStr(p, 3) == CStr(p, 4)
  {
    StopsAtZero(p, 3);
  }

  /** Extending the window past a 0 byte does not change the string. */
  lemma {:induction false} StopsAtZero(a: seq<Byte>, n: nat)
    requires n < |a| && a[n] == 0
    ensures CStr(a, n) == CStr(a, n + 1)
  {
    if n > 0 && a[0] != 0 {
      assert a[1..][n - 1] == a[n];
      StopsAtZero(a[1..], n - 1);
    }
  }

  /** The string held in `a` is a prefix of `a` free of 0 bytes, cut at the first 0 byte or at `n`. */
  lemma {:induction false} CStrIsPrefix(a: seq<Byte>, n: nat)
    requires n <= |a|
    ensures CStr(a, n) == a[..|CStr(a, n)|]
    ensures forall i :: 0 <= i < |CStr(a, n)| ==> a[i] != 0
    ensures |CStr(a, n)| < n ==> a[|CStr(a, n)|] == 0
  {
    if n > 0 && a[0] != 0 {
      CStrIsPrefix(a[1..], n - 1);
      var s := CStr(a[1..], n - 1);
      assert CStr(a, n) == [a[0]] + s;
      assert a[..|s| + 1] == [a[0]] + a[1..][..|s|];
      forall i | 0 <= i < |s| + 1
        ensures a[i] != 0
      {
        if i > 0 {
          assert a[i] == a[1..][i - 1];
        }
      }
    }
  }

  /** The records of `db` that match, in array order. */
  function Selected(db: seq<Record>, key: seq<Byte>): (s: seq<Record>)
    requires forall i :: 0 <= i < |db| ==> WellFormed(db[i])
    requires |key| >= 3
    ensures |s| <= |db|
    ensures forall i :: 0 <= i < |s| ==> s[i] in db && Matches(s[i], key)
  {
    if |db| == 0 then []
    else
      var rest := Selected(db[..|db| - 1], key);
      if Matches(db[|db| - 1], key) then rest + [db[|db| - 1]] else rest
  }

  /**
   `search_by_lawyer_prefix`: scan all records in order and list every one
   whose prefix matches; `found` counts them. The listing is returned
   instead of printed.
   */
  method SearchByLawyerPrefix(db: seq<Record>, key: seq<Byte>) returns (listed: seq<Record>, found: int)
    requires forall i :: 0 <= i < |db| ==> WellFormed(db[i])
    requires |key| >= 3
    ensures forall r :: r in listed <==> r in db && Matches(r, key)
    ensures listed == Selected(db, key) && found == |listed|
  {
    listed, found := [], 0;
    var i := 0;
    while i < |db|
      invariant 0 <= i <= |db|
      invariant listed == Selected(db[..i], key) && found == |listed|
    {
      assert db[..i + 1][..i] == db[..i];
      if Matches(db[i], key) {
        listed := listed + [db[i]];
        found := found + 1;
      }
      i := i + 1;
    }
    assert db[..i] == db;
    SelectedIff(db, key);
  }

  lemma {:induction false} SelectedIff(db: seq<Record>, key: seq<Byte>)
    requires forall i :: 0 <= i < |db| ==> WellFormed(db[i])
    requires |key| >= 3
    ensures forall r :: r in Selected(db, key) <==> r in db && Matches(r, key)
  {
    if |db| > 0 {
      var q := db[..|db| - 1];
      SelectedIff(q, key);
      assert db == q + [db[|db| - 1]];
      forall r | r in db && Matches(r, key)
        ensures r in Selected(db, key)
      {
        if r != db[|db| - 1] {
          var k :| 0 <= k < |db| && db[k] == r;
          assert q[k] == r;
        }
      }
    }
  }
}

=== FILE: sorting.dfy ===
/**
 `insertSort` of 3-3lab.c: straight insertion sort of an integer array that
 also counts its work. M counts element moves (taking the key out, every
 shift, putting the key back) and C counts key comparisons that were
 evaluated (every comparison that caused a shift, plus the one that stopped
 the scan when the scan did not run off the front of the array). The
 function returns M + C.

 The array is modelled as a sequence updated in place; the counts are
 characterised twice, once pass by pass (`Moves`, `Comparisons`) and once
 by the input's inversions.
 */
module Sorting {

  ghost predicate Sorted(s: seq<int>)
  {
    forall i, j :: 0 <= i < j < |s| ==> s[i] <= s[j]
  }

  // ---------------------------------------------------------------------------
  // One pass: insert `x` into the sorted prefix `p`, scanning from its end

  /**
   The prefix after one pass: the scan from the back moves every element
   greater than `x` one place up and drops `x` after the first element
   that is not greater (so equal keys keep their order).
   */
  function InsertSorted(p: seq<int>, x: int): seq<int>
  {
    if |p| == 0 then [x]
    else if x < p[|p| - 1] then InsertSorted(p[..|p| - 1], x) + [p[|p| - 1]]
    else p + [x]
  }

  /** The number of elements the scan shifts before it stops. */
  function Shifts(p: seq<int>, x: int): nat
  {
    if |p| == 0 then 0
    else if x < p[|p| - 1] then 1 + Shifts(p[..|p| - 1], x)
    else 0
  }

  /**
   Whatever the prefix, if every element from position `k` on is greater
   than `x` and the one before `k` (if any) is not, the pass shifts exactly
   the elements from `k` on and puts `x` at position `k`.
   */
  lemma {:induction false} InsertAt(p: seq<int>, x: int, k: int)
    requires 0 <= k <= |p|
    requires forall m :: k <= m < |p| ==> x < p[m]
    requires k == 0 || p[k - 1] <= x
    ensures InsertSorted(p, x) == p[..k] + [x] + p[k..]
    ensures Shifts(p, x) == |p| - k
    decreases |p|
  {
    if k < |p| {
      var q := p[..|p| - 1];
      assert x < p[|p| - 1];
      assert q[..k] == p[..k];
      if k > 0 {
        assert q[k - 1] == p[k - 1];
      }
      InsertAt(q, x, k);
      assert p[k..] == q[k..] + [p[|p| - 1]];
    } else if k > 0 {
      assert p[..k] == p;
    }
  }

  // ---------------------------------------------------------------------------
  // The whole sort and its counters, pass by pass

  /** The array after the sort: each element in turn inserted into the sorted prefix before it. */
  function Sort(a: seq<int>): seq<int>
  {
    if |a| == 0 then [] else InsertSorted(Sort(a[..|a| - 1]), a[|a| - 1])
  }

  /** M: one move to take the key, one per shift, one to put the key back, for passes 1..n-1. */
  function Moves(a: seq<int>): int
  {
    if |a| <= 1 then 0
    else Moves(a[..|a| - 1]) + 2 + Shifts(Sort(a[..|a| - 1]), a[|a| - 1])
  }

  /** C: one comparison per shift, plus one when the scan stopped on an element not greater than the key. */
  function Comparisons(a: seq<int>): int
  {
    if |a| <= 1 then 0
    else
      var p, x := Sort(a[..|a| - 1]), a[|a| - 1];
      Comparisons(a[..|a| - 1]) + Shifts(p, x) + (if Shifts(p, x) < |p| then 1 else 0)
  }

  /**
   `insertSort`: sorts `a` in place and returns M + C. The result is the
   pass-by-pass sort, it is ordered and a permutation of `a`, and the work
   is 2(n-1) moves plus, for each inversion, one move and one comparison,
   plus one comparison per pass that stopped before the front.
   */
  method InsertSort(a: seq<int>) returns (s: seq<int>, work: int)
    ensures Sorted(s) && multiset(s) == multiset(a)
    ensures s == Sort(a)
    ensures |a| >= 1 ==> work == 2 * (|a| - 1) + 2 * Inversions(a) + StoppedPasses(a)
    ensures work == Moves(a) + Comparisons(a)
  {
    s := a;
    var m, c := 0, 0;
    if |a| == 0 {
      work := 0;
      SortProperties(a);
      return;
    }
    assert s[..1] == Sort(a[..1]);
    var i := 1;
    while i < |a|
      invariant 1 <= i <= |a| && |s| == |a|
      invariant s[..i] == Sort(a[..i])
      invariant s[i..] == a[i..]
      invariant m == Moves(a[..i]) && c == Comparisons(a[..i])
    {
      var dm, dc;
      ghost var before := s;
      s, dm, dc := InsertPass(s, i);
      m, c := m + dm, c + dc;
      assert before[i] == a[i];
      PassStep(a, i);
      assert s[i + 1..] == a[i + 1..] by {
        assert before[i + 1..] == a[i + 1..];
      }
      i := i + 1;
    }
    assert a[..i] == a && s[..i] == s;
    assert s == Sort(a);
    work := m + c;
    SortProperties(a);
    WorkByInversions(a);
  }

  /**
   One pass of the outer loop of `insertSort` for key position `i`: take the
   key out, shift the greater elements of the prefix up while scanning
   down, put the key into the gap. Returns the updated array and what the
   pass adds to M and to C.
   */
  method InsertPass(s: seq<int>, i: int) returns (r: seq<int>, moves: int, comps: int)
    requires 1 <= i < |s|
    ensures |r| == |s|
    ensures r[..i + 1] == InsertSorted(s[..i], s[i])
    ensures r[i + 1..] == s[i + 1..]
    ensures moves == 2 + Shifts(s[..i], s[i])
    ensures comps == Shifts(s[..i], s[i]) + (if Shifts(s[..i], s[i]) < i then 1 else 0)
  {
    r := s;
    moves, comps := 0, 0;
    var t := r[i];
    var j := i - 1;
    moves := moves + 1;
    ghost var p := s[..i];
    while j >= 0 && t < r[j]
      invariant -1 <= j <= i - 1 && |r| == |s|
      invariant r[..j + 1] == p[..j + 1]
      invariant r[j + 2..i + 1] == p[j + 1..]
      invariant r[i + 1..] == s[i + 1..]
      invariant forall k :: j < k < i ==> t < p[k]
      invariant moves == 1 + (i - 1 - j) && comps == i - 1 - j
    {
      comps := comps + 1;
      ShiftUp(r, j, i, p);
      r := r[j + 1 := r[j]];
      moves := moves + 1;
      j := j - 1;
    }
    if j >= 0 {
      comps := comps + 1;
      assert r[j] == p[j];
    }
    InsertAt(p, t, j + 1);
    assert t == s[i] && Shifts(p, t) == i - 1 - j;
    ghost var gap := r;
    r := r[j + 1 := t];
    moves := moves + 1;
    FillGap(gap, j + 1, t, p);
  }

  /** Copying element `j` one place up extends the shifted part of the prefix down to `j`. */
  lemma ShiftUp(r: seq<int>, j: int, i: int, p: seq<int>)
    requires 0 <= j < i < |r| && |p| == i
    requires r[..j + 1] == p[..j + 1] && r[j + 2..i + 1] == p[j + 1..]
    ensures r[j + 1 := r[j]][..j] == p[..j]
    ensures r[j + 1 := r[j]][j + 1..i + 1] == p[j..]
    ensures r[j + 1 := r[j]][i + 1..] == r[i + 1..]
  {
    var u := r[j + 1 := r[j]];
    assert r[j] == p[j];
    assert u[j + 1..i + 1] == [p[j]] + r[j + 2..i + 1];
  }

  /** Writing `t` into the gap at `k` of a shifted prefix gives the prefix with `t` inserted at `k`. */
  lemma FillGap(gap: seq<int>, k: int, t: int, p: seq<int>)
    requires 0 <= k <= |p| < |gap|
    requires gap[..k] == p[..k] && gap[k + 1..|p| + 1] == p[k..]
    ensures gap[k := t][..|p| + 1] == p[..k] + [t] + p[k..]
    ensures gap[k := t][|p| + 1..] == gap[|p| + 1..]
  {
    var r := gap[k := t];
    var w := p[..k] + [t] + p[k..];
    forall m | 0 <= m < |p| + 1
      ensures r[m] == w[m]
    {
      if m < k {
        assert r[m] == gap[..k][m];
      } else if m > k {
        assert r[m] == gap[k + 1..|p| + 1][m - k - 1];
      }
    }
  }

  /** Extending the input by one element adds one pass to the sort and to both counters. */
  lemma PassStep(a: seq<int>, i: int)
    requires 1 <= i < |a|
    ensures Sort(a[..i + 1]) == InsertSorted(Sort(a[..i]), a[i])
    ensures Moves(a[..i + 1]) == Moves(a[..i]) + 2 + Shifts(Sort(a[..i]), a[i])
    ensures Comparisons(a[..i + 1]) == Comparisons(a[..i]) + Shifts(Sort(a[..i]), a[i])
              + (if Shifts(Sort(a[..i]), a[i]) < i then 1 else 0)
  {
    var b := a[..i + 1];
    assert b[..i] == a[..i] && b[i] == a[i];
    SortProperties(a[..i]);
  }

  // ---------------------------------------------------------------------------
  // The sort is a sorted permutation

  lemma {:induction false} InsertSortedPerm(p: seq<int>, x: int)
    ensures multiset(InsertSorted(p, x)) == multiset(p) + multiset{x}
    decreases |p|
  {
    if |p| > 0 && x < p[|p| - 1] {
      var q := p[..|p| - 1];
      InsertSortedPerm(q, x);
      assert p == q + [p[|p| - 1]];
    }
  }

  lemma {:induction false} InsertSortedSorted(p: seq<int>, x: int)
    requires Sorted(p)
    ensures Sorted(InsertSorted(p, x))
    decreases |p|
  {
    if |p| > 0 {
      var last := p[|p| - 1];
      var q := p[..|p| - 1];
      if x < last {
        InsertSortedSorted(q, x);
        var r := InsertSorted(q, x);
        InsertSortedPerm(q, x);
        forall e | e in r
          ensures e <= last
        {
          assert e in multiset(r);
          if e != x {
            assert e in multiset(q);
            var k :| 0 <= k < |q| && q[k] == e;
            assert p[k] == e;
          }
        }
        var s := r + [last];
        forall i, j | 0 <= i < j < |s|
          ensures s[i] <= s[j]
        {
          if j == |r| {
            assert s[i] == r[i] && r[i] in r;
          }
        }
      } else {
        var s := p + [x];
        forall i, j | 0 <= i < j < |s|
          ensures s[i] <= s[j]
        {
          if j == |p| {
            assert s[i] == p[i] <= p[|p| - 1];
          }
        }
      }
    }
  }

  /** The result of the sort is ordered and holds exactly the input's elements. */
  lemma SortProperties(a: seq<int>)
    ensures Sorted(Sort(a))
    ensures multiset(Sort(a)) == multiset(a)
    ensures |Sort(a)| == |a|
  {
    SortIsSorted(a);
    SortIsPermutation(a);
    assert |multiset(Sort(a))| == |multiset(a)|;
  }

  lemma {:induction false} SortIsSorted(a: seq<int>)
    ensures Sorted(Sort(a))
    decreases |a|
  {
    if |a| > 0 {
      SortIsSorted(a[..|a| - 1]);
      InsertSortedSorted(Sort(a[..|a| - 1]), a[|a| - 1]);
    }
  }

  lemma {:induction false} SortIsPermutation(a: seq<int>)
    ensures multiset(Sort(a)) == multiset(a)
    decreases |a|
  {
    if |a| > 0 {
      var q := a[..|a| - 1];
      SortIsPermutation(q);
      InsertSortedPerm(Sort(q), a[|a| - 1]);
      assert a == q + [a[|a| - 1]];
    }
  }

  // ---------------------------------------------------------------------------
  // The counters in terms of the input's inversions

  /** How many elements of `s` are greater than `v`. */
  function CountGreater(s: seq<int>, v: int): nat
  {
    if |s| == 0 then 0
    else CountGreater(s[..|s| - 1], v) + (if s[|s| - 1] > v then 1 else 0)
  }

  /** Pairs i < j with a[i] > a[j]. */
  function Inversions(a: seq<int>): nat
  {
    if |a| == 0 then 0
    else Inversions(a[..|a| - 1]) + CountGreater(a[..|a| - 1], a[|a| - 1])
  }

  /** Positions j >= 1 with some earlier element not greater than a[j]. */
  function StoppedPasses(a: seq<int>): nat
  {
    if |a| == 0 then 0
    else
      var q := a[..|a| - 1];
      StoppedPasses(q) + (if CountGreater(q, a[|a| - 1]) < |q| then 1 else 0)
  }

  /** Fewer than |s| elements exceed `v` exactly when some element does not. */
  lemma {:induction false} CountGreaterBelowLength(s: seq<int>, v: int)
    ensures CountGreater(s, v) <= |s|
    ensures CountGreater(s, v) < |s| <==> exists k :: 0 <= k < |s| && s[k] <= v
    decreases |s|
  {
    if |s| > 0 {
      var q := s[..|s| - 1];
      CountGreaterBelowLength(q, v);
      if exists k :: 0 <= k < |q| && q[k] <= v {
        var k :| 0 <= k < |q| && q[k] <= v;
        assert s[k] <= v;
      }
      if exists k :: 0 <= k < |s| && s[k] <= v {
        var k :| 0 <= k < |s| && s[k] <= v;
        if k < |q| {
          assert q[k] <= v;
        }
      }
    }
  }

  lemma {:induction false} CountGreaterInsert(p: seq<int>, x: int, v: int)
    ensures CountGreater(InsertSorted(p, x), v) == CountGreater(p, v) + (if x > v then 1 else 0)
    decreases |p|
  {
    if |p| > 0 {
      var q := p[..|p| - 1];
      if x < p[|p| - 1] {
        CountGreaterInsert(q, x, v);
        assert (InsertSorted(q, x) + [p[|p| - 1]])[..|InsertSorted(q, x)|] == InsertSorted(q, x);
      } else {
        assert (p + [x])[..|p|] == p;
      }
    } else {
      assert [x][..0] == [];
    }
  }

  /** Sorting does not change how many elements exceed a value. */
  lemma {:induction false} CountGreaterSort(a: seq<int>, v: int)
    ensures CountGreater(Sort(a), v) == CountGreater(a, v)
    decreases |a|
  {
    if |a| > 0 {
      CountGreaterSort(a[..|a| - 1], v);
      CountGreaterInsert(Sort(a[..|a| - 1]), a[|a| - 1], v);
    }
  }

  lemma {:induction false} CountGreaterNone(s: seq<int>, v: int)
    requires forall k :: 0 <= k < |s| ==> s[k] <= v
    ensures CountGreater(s, v) == 0
    decreases |s|
  {
    if |s| > 0 {
      var q := s[..|s| - 1];
      assert forall k :: 0 <= k < |q| ==> q[k] <= v by {
        forall k | 0 <= k < |q|
          ensures q[k] <= v
        {
          assert q[k] == s[k];
        }
      }
      CountGreaterNone(q, v);
    }
  }

  /** On a sorted prefix the scan shifts exactly the elements greater than the key. */
  lemma {:induction false} ShiftsCountGreater(p: seq<int>, x: int)
    requires Sorted(p)
    ensures Shifts(p, x) == CountGreater(p, x)
    decreases |p|
  {
    if |p| > 0 {
      var q := p[..|p| - 1];
      assert Sorted(q) by {
        forall i, j | 0 <= i < j < |q|
          ensures q[i] <= q[j]
        {
          assert q[i] == p[i] && q[j] == p[j];
        }
      }
      if x < p[|p| - 1] {
        ShiftsCountGreater(q, x);
      } else {
        forall k | 0 <= k < |p|
          ensures p[k] <= x
        {
          assert p[k] <= p[|p| - 1];
        }
        CountGreaterNone(p, x);
      }
    }
  }

  /**
   Pass j shifts as many elements as a[j] has larger predecessors, so the
   moves are 2(n-1) plus the inversions and the comparisons are the
   inversions plus the passes that stopped on an element.
   */
  lemma {:induction false} WorkByInversions(a: seq<int>)
    requires |a| >= 1
    ensures Moves(a) == 2 * (|a| - 1) + Inversions(a)
    ensures Comparisons(a) == Inversions(a) + StoppedPasses(a)
    decreases |a|
  {
    var q := a[..|a| - 1];
    if |a| == 1 {
      assert q == [];
    } else {
      WorkByInversions(q);
      var x := a[|a| - 1];
      SortProperties(q);
      ShiftsCountGreater(Sort(q), x);
      CountGreaterSort(q, x);
    }
  }

  /** An input already in order costs three units per pass: two moves and the stopping comparison. */
  lemma {:induction false} SortedInputWork(a: seq<int>)
    requires Sorted(a) && |a| >= 1
    ensures Inversions(a) == 0 && StoppedPasses(a) == |a| - 1
    ensures Moves(a) + Comparisons(a) == 3 * (|a| - 1)
    decreases |a|
  {
    var q := a[..|a| - 1];
    var x := a[|a| - 1];
    if |a| > 1 {
      assert Sorted(q) by {
        forall i, j | 0 <= i < j < |q|
          ensures q[i] <= q[j]
        {
          assert q[i] == a[i] && q[j] == a[j];
        }
      }
      SortedInputWork(q);
      forall k | 0 <= k < |q|
        ensures q[k] <= x
      {
        assert q[k] == a[k];
      }
      CountGreaterNone(q, x);
    } else {
      assert q == [];
    }
    WorkByInversions(a);
  }
}

=== FILE: trees.dfy ===
/**
 The node store shared by every tree program of the repository: a binary tree
 of integer keys whose nodes carry one extra field. The AVL program stores a
 balance factor there (`Tree<int>`); the plain search-tree programs store
 nothing (`Tree<()>`). Ownership of children is structural.

 The module also holds the read-only statistics that the programs print:
 size, key checksum, height, the path-length sum and the leaf-depth totals.
 */
module Trees {
  import opened Bits

  datatype Tree<B> = Empty | Node(left: Tree<B>, key: int, bal: B, right: Tree<B>)

  /** The set of keys stored in `t`. */
  function Keys<B>(t: Tree<B>): set<int>
  {
    match t
    case Empty => {}
    case Node(l, k, _, r) => Keys(l) + {k} + Keys(r)
  }

  /** The keys of `t`, left subtree first (the order the programs print them in). */
  function InOrder<B>(t: Tree<B>): seq<int>
  {
    match t
    case Empty => []
    case Node(l, k, _, r) => InOrder(l) + [k] + InOrder(r)
  }

  /** Strict search-tree order: left keys < node key < right keys, at every node. */
  ghost predicate IsBst<B>(t: Tree<B>)
  {
    match t
    case Empty => true
    case Node(l, k, _, r) =>
      && IsBst(l) && IsBst(r)
      && (forall x :: x in Keys(l) ==> x < k)
      && (forall x :: x in Keys(r) ==> k < x)
  }

  ghost predicate StrictlyIncreasing(s: seq<int>)
  {
    forall i, j :: 0 <= i < j < |s| ==> s[i] < s[j]
  }

  function SeqSum(s: seq<int>): int
  {
    if |s| == 0 then 0 else SeqSum(s[..|s| - 1]) + s[|s| - 1]
  }

  function Max(a: int, b: int): int
  {
    if a > b then a else b
  }

  // ---------------------------------------------------------------------------
  // Keys, in-order sequence and search-tree order

  lemma {:induction false} InOrderHasKeys<B>(t: Tree<B>)
    ensures forall x :: x in InOrder(t) <==> x in Keys(t)
  {
    match t
    case Empty =>
    case Node(l, k, _, r) =>
      InOrderHasKeys(l);
      InOrderHasKeys(r);
  }

  lemma SortedAroundPivot(a: seq<int>, k: int, b: seq<int>)
    ensures StrictlyIncreasing(a + [k] + b) <==>
              && StrictlyIncreasing(a) && StrictlyIncreasing(b)
              && (forall x :: x in a ==> x < k)
              && (forall y :: y in b ==> k < y)
  {
    if StrictlyIncreasing(a + [k] + b) {
      SortedSplit(a, k, b);
    }
    if && StrictlyIncreasing(a) && StrictlyIncreasing(b)
       && (forall x :: x in a ==> x < k) && (forall y :: y in b ==> k < y)
    {
      SortedJoin(a, k, b);
    }
  }

  lemma SortedSplit(a: seq<int>, k: int, b: seq<int>)
    requires StrictlyIncreasing(a + [k] + b)
    ensures StrictlyIncreasing(a) && StrictlyIncreasing(b)
    ensures forall x :: x in a ==> x < k
    ensures forall y :: y in b ==> k < y
  {
    var s := a + [k] + b;
    assert s[|a|] == k;
    forall i, j | 0 <= i < j < |a| ensures a[i] < a[j] {
      assert s[i] == a[i] && s[j] == a[j];
    }
    forall x | x in a ensures x < k {
      var i :| 0 <= i < |a| && a[i] == x;
      assert s[i] == x;
    }
    forall y | y in b ensures k < y {
      var i :| 0 <= i < |b| && b[i] == y;
      assert s[|a| + 1 + i] == y;
    }
    forall i, j | 0 <= i < j < |b| ensures b[i] < b[j] {
      assert s[|a| + 1 + i] == b[i] && s[|a| + 1 + j] == b[j];
    }
  }

  lemma SortedJoin(a: seq<int>, k: int, b: seq<int>)
    requires StrictlyIncreasing(a) && StrictlyIncreasing(b)
    requires forall x :: x in a ==> x < k
    requires forall y :: y in b ==> k < y
    ensures StrictlyIncreasing(a + [k] + b)
  {
    var s := a + [k] + b;
    forall i, j | 0 <= i < j < |s| ensures s[i] < s[j] {
      var u := if i < |a| then a[i] else if i == |a| then k else b[i - |a| - 1];
      var v := if j < |a| then a[j] else if j == |a| then k else b[j - |a| - 1];
      assert s[i] == u && s[j] == v;
      assert u < v by {
        if j < |a| {
        } else if i < |a| {
          assert u in a && u < k;
          assert j > |a| ==> v in b && k < v;
        } else if i > |a| {
          assert u == b[i - |a| - 1] && v == b[j - |a| - 1];
        } else {
          assert v in b;
        }
      }
    }
  }

  /** Search-tree order is exactly "the in-order sequence strictly increases". */
  lemma {:induction false} BstIffSortedInOrder<B>(t: Tree<B>)
    ensures IsBst(t) <==> StrictlyIncreasing(InOrder(t))
  {
    match t
    case Empty =>
    case Node(l, k, _, r) =>
      BstIffSortedInOrder(l);
      BstIffSortedInOrder(r);
      InOrderHasKeys(l);
      InOrderHasKeys(r);
      SortedAroundPivot(InOrder(l), k, InOrder(r));
  }

  /** Two trees with the same in-order sequence hold the same keys and agree on search-tree order. */
  lemma SameInOrder<B>(s: Tree<B>, t: Tree<B>)
    requires InOrder(s) == InOrder(t)
    ensures Keys(s) == Keys(t)
    ensures IsBst(s) <==> IsBst(t)
  {
    InOrderHasKeys(s);
    InOrderHasKeys(t);
    forall x | x in Keys(s) ensures x in Keys(t) {}
    forall x | x in Keys(t) ensures x in Keys(s) {}
    BstIffSortedInOrder(s);
    BstIffSortedInOrder(t);
  }

  // ---------------------------------------------------------------------------
  // Statistics

  /** Node count (`Size` of 3-3lab.c, `getSize` of 3.5.c). */
  function Size<B>(t: Tree<B>): (n: nat)
    ensures n == |InOrder(t)|
  {
    match t
    case Empty => 0
    case Node(l, _, _, r) => 1 + Size(l) + Size(r)
  }

  lemma SeqSumConcat(a: seq<int>, b: seq<int>)
    ensures SeqSum(a + b) == SeqSum(a) + SeqSum(b)
    decreases |b|
  {
    if |b| == 0 {
      assert a + b == a;
    } else {
      assert (a + b)[..|a + b| - 1] == a + b[..|b| - 1];
      SeqSumConcat(a, b[..|b| - 1]);
    }
  }

  /** Sum of all keys (`CheckSum` of 3-3lab.c, `getChecksum` of 3.5.c). */
  function CheckSum<B>(t: Tree<B>): (s: int)
    ensures s == SeqSum(InOrder(t))
  {
    match t
    case Empty => 0
    case Node(l, k, _, r) =>
      SeqSumConcat(InOrder(l) + [k], InOrder(r));
      SeqSumConcat(InOrder(l), [k]);
      k + CheckSum(l) + CheckSum(r)
  }

  /** Number of nodes on the longest root-to-leaf path; 0 for the empty tree. */
  function Height<B>(t: Tree<B>): (h: nat)
    ensures h == 0 <==> t.Empty?
    ensures h <= Size(t)
  {
    match t
    case Empty => 0
    case Node(l, _, _, r) => 1 + Max(Height(l), Height(r))
  }

  /**
   Depth of every node (root at `d`), in pre-order: the list of depths itself,
   with no running total. The accumulating functions are measured against its sum.
   */
  function NodeDepths<B>(t: Tree<B>, d: int): seq<int>
  {
    match t
    case Empty => []
    case Node(l, _, _, r) => [d] + NodeDepths(l, d + 1) + NodeDepths(r, d + 1)
  }

  /**
   Depth of every leaf (node without children, root at `d`), left to right: the
   list of leaf depths itself, with no accumulator. Its sum and length are the
   reference for AccumulateLeafDepths.
   */
  function LeafDepths<B>(t: Tree<B>, d: int): seq<int>
  {
    match t
    case Empty => []
    case Node(l, _, _, r) =>
      if l.Empty? && r.Empty? then [d] else LeafDepths(l, d + 1) + LeafDepths(r, d + 1)
  }

  lemma SeqSumCons3(d: int, a: seq<int>, b: seq<int>)
    ensures SeqSum([d] + a + b) == d + SeqSum(a) + SeqSum(b)
  {
    SeqSumConcat([d] + a, b);
    SeqSumConcat([d], a);
    assert [d][..0] == [];
  }

  /** One depth per node. */
  lemma {:induction false} NodeDepthsCount<B>(t: Tree<B>, d: int)
    ensures |NodeDepths(t, d)| == Size(t)
  {
    match t
    case Empty =>
    case Node(l, _, _, r) =>
      NodeDepthsCount(l, d + 1);
      NodeDepthsCount(r, d + 1);
  }

  lemma NodeDepthsSum<B>(t: Tree<B>, d: int)
    requires t.Node?
    ensures SeqSum(NodeDepths(t, d)) == d + SeqSum(NodeDepths(t.left, d + 1)) + SeqSum(NodeDepths(t.right, d + 1))
  {
    SeqSumCons3(d, NodeDepths(t.left, d + 1), NodeDepths(t.right, d + 1));
  }

  /**
   `PathLengthSum(p, level)`: level plus the path-length sums of both
   subtrees one level down. Counted from level 1, as `AverageHeight` does,
   every node adds at least 1.
   */
  function PathLengthSum<B>(t: Tree<B>, level: int): (s: int)
    ensures level >= 1 ==> s >= Size(t)
  {
    match t
    case Empty => 0
    case Node(l, _, _, r) => level + PathLengthSum(l, level + 1) + PathLengthSum(r, level + 1)
  }

  /** The path-length sum is the sum, over all nodes, of the node's depth counted from `level` at the root. */
  lemma {:induction false} PathLengthSumIsDepthSum<B>(t: Tree<B>, level: int)
    ensures PathLengthSum(t, level) == SeqSum(NodeDepths(t, level))
  {
    match t
    case Empty =>
    case Node(l, _, _, r) =>
      PathLengthSumIsDepthSum(l, level + 1);
      PathLengthSumIsDepthSum(r, level + 1);
      NodeDepthsSum(t, level);
  }

  /** Starting the path-length sum one level deeper adds exactly one per node. */
  lemma {:induction false} PathLengthSumOverNodes<B>(t: Tree<B>, level: int)
    ensures PathLengthSum(t, level + 1) == PathLengthSum(t, level) + Size(t)
  {
    match t
    case Empty =>
    case Node(l, _, _, r) =>
      PathLengthSumOverNodes(l, level + 1);
      PathLengthSumOverNodes(r, level + 1);
  }

  /** Every node lies above depth `d + Height(t)`, and some node sits exactly at the bottom level. */
  lemma HeightIsDeepestNode<B>(t: Tree<B>, d: int)
    ensures forall x :: x in NodeDepths(t, d) ==> d <= x < d + Height(t)
    ensures t.Node? ==> d + Height(t) - 1 in LeafDepths(t, d)
    ensures forall x :: x in LeafDepths(t, d) ==> x in NodeDepths(t, d)
  {
    NodeDepthsBelowHeight(t, d);
    DeepestLeaf(t, d);
    LeafDepthsAreNodeDepths(t, d);
  }

  lemma {:induction false} NodeDepthsBelowHeight<B>(t: Tree<B>, d: int)
    ensures forall x :: x in NodeDepths(t, d) ==> d <= x < d + Height(t)
  {
    match t
    case Empty =>
    case Node(l, _, _, r) =>
      NodeDepthsBelowHeight(l, d + 1);
      NodeDepthsBelowHeight(r, d + 1);
  }

  lemma DeepestLeaf<B>(t: Tree<B>, d: int)
    ensures t.Node? ==> d + Height(t) - 1 in LeafDepths(t, d)
  {
    if t.Node? {
      DeepestLeafAt(t, d, d + Height(t) - 1);
    }
  }

  lemma {:induction false} DeepestLeafAt<B>(t: Tree<B>, d: int, bottom: int)
    requires t.Node? && bottom == d + Height(t) - 1
    ensures bottom in LeafDepths(t, d)
  {
    var l, r := t.left, t.right;
    if l.Node? || r.Node? {
      assert LeafDepths(t, d) == LeafDepths(l, d + 1) + LeafDepths(r, d + 1);
      if Height(l) >= Height(r) {
        DeepestLeafAt(l, d + 1, bottom);
      } else {
        DeepestLeafAt(r, d + 1, bottom);
      }
    }
  }

  lemma {:induction false} LeafDepthsAreNodeDepths<B>(t: Tree<B>, d: int)
    ensures forall x :: x in LeafDepths(t, d) ==> x in NodeDepths(t, d)
  {
    match t
    case Empty =>
    case Node(l, _, _, r) =>
      LeafDepthsAreNodeDepths(l, d + 1);
      LeafDepthsAreNodeDepths(r, d + 1);
  }

  /** Leaf-depth accumulator of `calculateAverageDepth` (3.5.c). */
  datatype DepthStats = DepthStats(totalDepth: int, leafCount: int)

  /**
   Adds, for each leaf of `t`, its depth (the root of `t` at `depth`) to
   `totalDepth` and 1 to `leafCount`; visits the left subtree first.
   */
  function AccumulateLeafDepths<B>(t: Tree<B>, depth: int, stats: DepthStats): (r: DepthStats)
    ensures r.totalDepth == stats.totalDepth + SeqSum(LeafDepths(t, depth))
    ensures r.leafCount == stats.leafCount + |LeafDepths(t, depth)|
  {
    match t
    case Empty => stats
    case Node(l, _, _, rt) =>
      var here := if l.Empty? && rt.Empty?
                  then DepthStats(stats.totalDepth + depth, stats.leafCount + 1)
                  else stats;
      var afterLeft := AccumulateLeafDepths(l, depth + 1, here);
      SeqSumConcat(LeafDepths(l, depth + 1), LeafDepths(rt, depth + 1));
      assert [depth][..0] == [];
      AccumulateLeafDepths(rt, depth + 1, afterLeft)
  }

  /** A non-empty tree has between 1 and Size leaves; the empty tree has none. */
  lemma {:induction false} LeafCountBounds<B>(t: Tree<B>, d: int)
    ensures t.Node? ==> 1 <= |LeafDepths(t, d)| <= Size(t)
    ensures t.Empty? ==> LeafDepths(t, d) == []
  {
    match t
    case Empty =>
    case Node(l, _, _, r) =>
      LeafCountBounds(l, d + 1);
      LeafCountBounds(r, d + 1);
  }

  /** A tree of height h holds at most 2^h - 1 nodes. */
  lemma {:induction false} SizeAtMostFull<B>(t: Tree<B>)
    ensures Size(t) < Pow2(Height(t))
  {
    match t
    case Empty =>
    case Node(l, _, _, r) =>
      var h := Height(t) - 1;
      assert Size(l) < Pow2(h) by {
        SizeAtMostFull(l);
        PowMonotone(Height(l), h);
      }
      assert Size(r) < Pow2(h) by {
        SizeAtMostFull(r);
        PowMonotone(Height(r), h);
      }
      assert Pow2(h + 1) == 2 * Pow2(h);
  }

  lemma DisjointUnionSize(a: set<int>, k: int, b: set<int>)
    requires a !! b && k !in a && k !in b
    ensures |a + {k} + b| == |a| + 1 + |b|
  {
    assert |a + {k}| == |a| + 1;
  }

  /** In a search tree the node count equals the number of distinct keys. */
  lemma {:induction false} SizeIsKeyCount<B>(t: Tree<B>)
    requires IsBst(t)
    ensures Size(t) == |Keys(t)|
  {
    match t
    case Empty =>
    case Node(l, k, _, r) =>
      SizeIsKeyCount(l);
      SizeIsKeyCount(r);
      assert Keys(l) !! Keys(r) && k !in Keys(l) && k !in Keys(r) by {
        forall x | x in Keys(l) ensures x < k {}
        forall x | x in Keys(r) ensures k < x {}
      }
      DisjointUnionSize(Keys(l), k, Keys(r));
  }
}
